=== FILE: README.md ===
# Research assistant core in Dafny

This project models the deterministic core of a research assistant built on
LangGraph, a chat model and the Tavily search API. The assistant comes in
three variants, and they share a source formatter:

- **Sources** (`utils.py`). The formatter flattens one or many search
  responses. It keeps the first source per URL and renders one block per
  distinct URL, in order of first appearance. On request it cuts each
  page's raw content to `4 * max_tokens_per_source` characters and appends
  a marker. `format_sources` renders a one-line-per-source list.
- **GroqPipeline** (`graph.py`). A planner's queries fan out to one
  research task each. A task searches the web and, for each hit, picks raw
  content, then the snippet, then a placeholder. It cuts the content at
  1500 characters and summarizes it. Any exception turns its output
  into a single degraded result. The writer numbers the results the same
  way in the prompt and in the reference list it appends to the answer.
- **LinePipeline** (`src/main.py`). The planner replies with one query per
  line. Lines are stripped, kept when longer than five characters, and
  capped at five queries. Every query is searched in turn; a failing search
  is skipped. Every hit becomes a flat record, and every record is
  summarized. Failed or blank summaries are dropped.
- **OllamaPipeline** (`src/graph.py`). Each query is searched for its first
  hit, and that page is extracted and summarized. There is no exception
  handler, so any failure ends the run. The writer lists every result in
  full and appends an uncut reference list.

Shared modules:

- `Wrappers` holds `Option`, `Result` and the Python exception kinds.
- `Text` holds Python's `str.strip`, `split`, `join`, `str(int)`, slicing
  and "cut and append a marker", each proved against an inverse or a
  characterization.
- `Records` holds dict fields (absent, `None`, or a string), search hits,
  `QueryResult(title, url, resume)` and the `operator.add` reducer that
  merges the updates of parallel workers.

The search client, the extraction call, the planner and the chat models
are function parameters. Each parameter returns its value or the exception
it raised (`Result`). The model is pure: nothing here performs I/O.

## Model

| member | source | states |
|---|---|---|
| Records.GetOr | src/main.py:96-98 | `dict.get(key, default)` yields the default when the key is absent, and a present value, `None` included, unchanged |
| Records.Merge | src/main.py:40 | `operator.add` keeps the current list as a prefix and the update as the suffix |
| Records.FanIn | src/schemas.py:15 | the merged list of worker updates is as long as the updates together and holds every item of every update |
| Records.FanInAppend | src/main.py:40 | merging two batches of updates gives the concatenation of their separate merges (the reducer is associative) |
| Records.FanInBlocks | src/schemas.py:15 | update i occupies exactly the block of the merged list that follows the items of the updates before it, so nothing is lost, duplicated or reordered |
| Text.Strip | src/main.py:70 | `strip()` never lengthens a string and leaves no whitespace at either end |
| Text.StripIsInfix | src/main.py:70 | `strip()` removes leading whitespace and trailing whitespace only: the result is the infix that starts at the first non-space character |
| Text.StripPadded | src/main.py:70 | `strip()` of whitespace + trimmed core + whitespace is exactly the core, for every input |
| Text.Split | src/main.py:65 | `split('\n')` yields at least one part and no part contains the separator |
| Text.SplitJoin | utils.py:108-111 | splitting `'\n'.join(parts)` gives back the parts when none contains a newline |
| Text.JoinSplit | src/main.py:65 | joining the parts of `split(sep)` with `sep` gives back the string |
| Text.JoinShape | utils.py:108-111 | `sep.join(parts)` is "" for no parts, starts with the first part, ends with the last, and has the separator right after the first part when there is a second |
| Text.SplitJoinLines | graph.py:203 | a block of newline-terminated lines splits into those lines plus one empty piece |
| Text.NatToString | graph.py:202 | `str(n)` is a non-empty string of digits without newline or bracket |
| Text.ParseNatToString | graph.py:202 | reading back the decimal digits of `str(n)` gives `n` |
| Text.NatToStringInjective | graph.py:202-203 | distinct numbers print differently, so citation numbers identify results |
| Text.IntToString | utils.py:85 | `str(i)` reads back as `i`: its digits parse to `i`, after a leading minus sign when `i` is negative |
| Text.LeadingNumberOf | src/graph.py:153 | `str(n)` followed by a non-digit is read back as the leading number `n` |
| Text.LeadingCitationOf | graph.py:202-203 | a string starting with `"[" + str(n) + "]"` is read back as citation `n` |
| Text.Truncate | graph.py:145-146 | a string within the limit is unchanged; a longer one is exactly its first `limit` characters followed by the marker |
| Text.PyPrefix | utils.py:83 | Python's `s[:k]` is always a prefix of `s`, also for a negative `k` |
| Sources.AsEntries | utils.py:46 | a dict input contributes its results one for one, in order |
| Sources.ElementEntries | utils.py:49-53 | a dict with `results` contributes its results, a list its items as they are, a dict without `results` its keys in order; a non-iterable raises TypeError |
| Sources.FlattenSingle | utils.py:49-53 | a one-element list flattens to exactly that element's contribution |
| Sources.FlattenElements | utils.py:47-53 | a list input flattens without error exactly when no element is a non-iterable; otherwise TypeError |
| Sources.Normalize | utils.py:45-55 | a dict yields its `results` in order and raises KeyError without them; ValueError exactly for an input that is neither a dict nor a list |
| Sources.NormalizeSingleAsList | utils.py:45-51 | a dict flattens exactly as the one-element list holding it |
| Sources.FlattenAppend | utils.py:49-53 | list flattening is piecewise and in order: the entries of `a + b` are those of `a`, then those of `b` |
| Sources.SourcesOf | utils.py:59-60 | reading `source['url']` succeeds exactly when every entry is a source dict with a `url` key, and then yields those sources in order |
| Sources.Urls | utils.py:60 | the URLs of the sources, position by position |
| Sources.FirstIndex | utils.py:59-61 | the first position of a URL, with no earlier source carrying it |
| Sources.KeepFirst | utils.py:58-61 | the dict-filling loop keeps at most one source per input source |
| Sources.KeepFirstFromInput | utils.py:58-61 | every kept source comes from the input and carries a URL not seen before |
| Sources.KeepFirstDistinct | utils.py:58-61 | kept sources carry pairwise distinct URLs |
| Sources.KeepFirstCovers | utils.py:58-61 | a URL is kept if and only if it occurs in the input and was not seen before |
| Sources.UniqueByUrl | utils.py:58-61 | the dict's values are input sources with pairwise distinct URLs |
| Sources.KeepFirstIsFirstOccurrence | utils.py:60-61 | each kept source is the first source of the input that carries its URL |
| Sources.KeptPairInOrder | utils.py:58-65 | of two kept sources, the earlier one's URL first appears earlier in the input |
| Sources.KeepFirstInOrder | utils.py:58-65 | the blocks follow the order of first appearance of the URLs |
| Sources.DistinctCard | utils.py:58-61 | a list without repetitions has as many distinct values as elements |
| Sources.UniqueByUrlCount | utils.py:58-61 | exactly one source is kept per distinct URL |
| Sources.KeepFirstIgnoresDuplicate | utils.py:60 | a later source with a URL already seen is ignored, whatever its other fields hold |
| Sources.UniqueByUrlIgnoresDuplicate | utils.py:60 | appending a duplicate URL does not change the deduplicated sources |
| Sources.RawText | utils.py:76-78 | a missing or `None` raw content reads as the empty string and never raises |
| Sources.LimitRaw | utils.py:73-83 | with a non-negative token limit, the cut-and-mark of `Text.Truncate` at `4 * max_tokens` characters; with a negative one, Python's slice from the end followed by the marker |
| Sources.LimitRawBounds | utils.py:73-83 | raw content within `4 * max_tokens` characters is unchanged; a longer one is exactly its first `4 * max_tokens` characters followed by "... [truncated]" |
| Sources.SourceBlock | utils.py:66-85 | a block renders exactly when the source has a title and a content, and raises KeyError otherwise |
| Sources.SourceBlockLines | utils.py:66-68 | without raw content, and with a title, URL and content on one line each, the block read back line by line is exactly `Source <title>:`, `===`, `URL: <url>`, `===`, `Most relevant content from source: <content>`, `===` and a final empty piece; no line starts with "Full source content" |
| Sources.SourceBlockRawLines | utils.py:66-85 | with raw content the block starts with the same six lines, and the seventh line starts with "Full source content limited to "; the lines after the six are the full-content text read back |
| Sources.IncludeRawOnlyAppends | utils.py:71-85 | without raw content the token limit plays no part in the block; with it, the block is the block without raw content followed by the full-content text (`Full source content limited to <n> tokens: <raw>` and a blank line) |
| Sources.RenderBlocks | utils.py:65-85 | one block per kept source, in order, exactly when every kept source has a title and a content |
| Sources.StrippedKeepsTitle | utils.py:64-87 | stripping the final text keeps its leading "Sources:" |
| Sources.DeduplicateAndFormatSources | utils.py:45-87 | ValueError exactly for an unsupported input; otherwise any text produced starts with "Sources:" and is stripped |
| Sources.DeduplicateAndFormatBlocks | utils.py:58-87 | for well-formed sources the text is the stripped header plus exactly one block per distinct URL |
| Sources.SourceLines | utils.py:108-111 | one line per result, in order, exactly when every result renders; otherwise KeyError |
| Sources.FormatSourceList | utils.py:108-111 | a response without `results` raises KeyError; an empty result list gives ""; otherwise the list renders exactly when every result has a title and a URL, and fails with KeyError when one lacks either |
| Sources.FormatSourceListLines | utils.py:108-111 | read back line by line, the list has exactly one `"* title : url"` line per result, in order, and no trailing newline |
| Sources.SourceLine | utils.py:109 | a line renders exactly when the result has a title and a URL, otherwise KeyError; it starts with "* " and spans one line exactly when title and URL do |
| GroqPipeline.SpawnResearchers | graph.py:98-99 | one task per query, in query order, each carrying its query and the unchanged question |
| GroqPipeline.SelectContent | graph.py:140-160 | the fallback chain: a non-empty raw content is summarized; without a raw-content key the snippet stands in; a `None` or empty raw content stores the snippet, or the placeholder if the snippet is empty |
| GroqPipeline.CapContent | graph.py:145-146 | content within 1500 characters is unchanged; longer content becomes its first 1500 characters followed by "..." |
| GroqPipeline.Lookup | graph.py:136-137 | `result[key]` raises KeyError exactly on an absent key; a `None` value reads as "None" in every later f-string |
| GroqPipeline.ResearchHit | graph.py:135-160 | one hit succeeds exactly when it has a URL and a title and, if summarized, the summarizer succeeds; title and URL are copied and the resume is the summary or the fallback |
| GroqPipeline.ResearchHits | graph.py:132-160 | one result per hit, in hit order, exactly when no hit raises |
| GroqPipeline.Degraded | graph.py:166-168 | the degraded result points to "#", its title is "Busca: " followed by the query, and its resume is "Erro ao buscar informações sobre: " followed by the query |
| GroqPipeline.SingleSearch | graph.py:125-170 | a failing search or a response without `results` degrades; if no hit raises there is one result per hit, result i being what the hit loop builds from hit i; if any hit raises, earlier results are dropped and the single degraded result is returned |
| GroqPipeline.NoHitsNoResult | graph.py:132-135 | a search with zero hits contributes no result |
| GroqPipeline.Updates | graph.py:98-99 | one update per task |
| GroqPipeline.Dispatch | graph.py:235-238 | the merged results number exactly the sum of the tasks' updates |
| GroqPipeline.UpdatesAppend | graph.py:98-99 | the updates of `a + b` are those of `a`, then those of `b` |
| GroqPipeline.DispatchAppend | graph.py:235-238 | merging keeps task order: the results for `a + b` are those for `a` followed by those for `b` |
| GroqPipeline.DispatchSingle | graph.py:98-99 | a single query contributes exactly its own task's results |
| GroqPipeline.DispatchOnePerQuery | graph.py:128-130 | when every search fails or returns the one hit requested, there is exactly one result per query |
| GroqPipeline.OneResultEach | graph.py:128-168 | tasks whose searches fail or return one hit each send back exactly one result |
| GroqPipeline.CapSummary | graph.py:197-199 | a resume within 300 characters is unchanged; a longer one becomes its first 300 characters followed by "..." |
| GroqPipeline.FinalWriter | graph.py:206-214 | the writer succeeds exactly when the synthesizer does; the response starts with the answer followed by "\n\n References:\n", and with no results it is exactly that |
| GroqPipeline.PromptEntry | graph.py:197-202 | the i-th prompt entry starts with citation i+1, ends with the cut resume and a blank line, and is at most 309 characters longer than its number and title |
| GroqPipeline.ReferenceLine | graph.py:203 | the i-th reference line starts with citation i+1 and spans one line exactly when the title and URL do |
| GroqPipeline.CitationsAgree | graph.py:195-203 | the i-th result gets the number i+1 both in the prompt and in the reference list |
| GroqPipeline.FinalWriterReferences | graph.py:195-214 | read back line by line after the header, there is exactly one `"[i+1] - [title](url)"` line per result, in list order |
| GroqPipeline.ReferenceLinesReadBack | graph.py:203 | the accumulated references split back into one `"[i+1] - [title](url)"` line per result plus the empty piece after the last newline |
| GroqPipeline.Research | graph.py:226-242 | the run fails exactly when the planner fails or, for a non-empty plan, the writer fails; an empty plan gives no response; otherwise the response is the writer's output on the dispatched results |
| GroqPipeline.ResearchCitesEachQuery | graph.py:192-214 | a run whose plan has queries, whose searches fail or return one hit each, and whose synthesizer answers, ends with a response whose reference list has one line per query, cited [1], [2], ... in query order |
| LinePipeline.Qualifying | src/main.py:69-73 | the filter keeps at most one query per line |
| LinePipeline.QualifyingShape | src/main.py:70-73 | every kept query is stripped and longer than five characters, and spans no line break |
| LinePipeline.ParseQueries | src/main.py:63-78 | at most five queries, each stripped, longer than five characters and on one line |
| LinePipeline.FirstQualifying | src/main.py:69-76 | the queries are a prefix of the qualifying lines: all of them, or exactly the first five |
| LinePipeline.NoNewlineAfterStrip | src/main.py:70 | stripping a line never introduces a newline |
| LinePipeline.QualifyingPrefix | src/main.py:69-76 | reading more lines only extends the qualifying queries |
| LinePipeline.CollectQueries | src/main.py:63-78 | the loop as written, with its early `break`, returns exactly the first five qualifying lines of the reply |
| LinePipeline.TakeQueries | src/main.py:67-76 | the loop with its early exit computes the first five qualifying lines |
| LinePipeline.FirstQualifyingReached | src/main.py:75-76 | stopping after five queries, or at the end, yields the first qualifying lines |
| LinePipeline.ParseQueriesOfLines | src/main.py:65-76 | a reply listing one to five clean queries, one per line, is read back as exactly those queries, duplicates included |
| LinePipeline.QualifyingOfClean | src/main.py:70-73 | lines that are already clean queries all qualify, unchanged |
| LinePipeline.QualifyingSnoc | src/main.py:69-73 | one more line appends its stripped form exactly when that is longer than five characters |
| LinePipeline.QualifyingStep | src/main.py:69-73 | reading line i appends its stripped form exactly when that qualifies |
| LinePipeline.ShortLineIgnored | src/main.py:72-73 | blank and short lines are ignored wherever they appear |
| LinePipeline.RecordOf | src/main.py:94-99 | a record carries its query; absent title, url or content read as "" and present ones are kept |
| LinePipeline.SearchOne | src/main.py:87-102 | a failing search or a response without `results` contributes nothing; otherwise there is one record per hit, in hit order |
| LinePipeline.SearchAll | src/main.py:80-104 | no query gives no record and one query gives exactly its own records (with SearchAllAppend, the records of all queries in query order) |
| LinePipeline.SearchAllShape | src/main.py:93-99 | every record carries a query that was searched and has a title, url and content |
| LinePipeline.SearchAllAppend | src/main.py:86-104 | the records for `a + b` are those for `a` followed by those for `b` |
| LinePipeline.FailingQuerySkipped | src/main.py:100-102 | a query whose search raises contributes nothing and does not affect the queries around it |
| LinePipeline.SummarizeOne | src/main.py:113-130 | a record without title or content raises KeyError outside the handler; otherwise at most one summary, and none when the call fails or the reply is blank |
| LinePipeline.SummarizeOneSucceeds | src/main.py:121-126 | a record whose call succeeds with a non-blank reply yields exactly the stripped reply |
| LinePipeline.Summaries | src/main.py:109-132 | the step succeeds exactly when every record has a title and a content; at most one summary per record |
| LinePipeline.SummariesTrimmed | src/main.py:123-126 | every summary is non-empty and stripped |
| LinePipeline.SummariesComplete | src/main.py:112-130 | when every call succeeds with a non-blank reply, the summaries are the stripped replies, one per record, in record order |
| LinePipeline.SummaryListSnoc | src/main.py:112-126 | one more summarizable record appends its summary |
| LinePipeline.SummariesStep | src/main.py:112-126 | the last record's summaries land after the others' |
| LinePipeline.SummariesOfSearch | src/main.py:93-117 | the records produced by the search step never make the summary step raise |
| LinePipeline.Run | src/main.py:46-155 | the planner call's exception ends the run and nothing else raises; otherwise the queries are those parsed from the reply (at most five), the records are exactly those gathered by searching each query in turn, and the summaries are exactly those made from the records in order, each non-empty and stripped |
| OllamaPipeline.SingleSearch | src/graph.py:97-130 | failure cases: a search error, a response without `results` (KeyError), no hits (IndexError); at most one result; an extraction with no page gives no result and no error; one result carries the first hit's title and URL and the summary of the first page's raw content |
| OllamaPipeline.SingleSearchSucceeds | src/graph.py:106-130 | when every step succeeds there is exactly one result, whose URL is the first hit's URL, the one passed to the extraction |
| OllamaPipeline.Dispatch | src/graph.py:194-201 | the run survives exactly when every query's task does; at most one result per query |
| OllamaPipeline.DispatchOnePerQuery | src/graph.py:80-130 | when every query's path succeeds there is exactly one result per query, in query order, each with its first hit's URL |
| OllamaPipeline.DispatchStep | src/schemas.py:15 | the last query's update lands after the others' |
| OllamaPipeline.FinalWrite | src/graph.py:163-172 | the writer succeeds exactly when the synthesizer does; the response starts with the answer followed by the header: "\n\n References: \n", or "\n\n## Referências:\n" for the customised writer of examples/config_example.py:95, which is otherwise the same |
| OllamaPipeline.PromptEntry | src/graph.py:153-157 | the i-th prompt entry starts with the number i+1 and carries the whole resume, uncut, followed only by the closing separator |
| OllamaPipeline.ReferenceLine | src/graph.py:160 | the i-th reference line starts with citation i+1 and spans one line exactly when the title and URL do |
| OllamaPipeline.CitationsAgree | src/graph.py:151-160 | the i-th result is numbered i+1 both in the prompt and in the reference list |
| OllamaPipeline.FinalWriteReferences | src/graph.py:151-172 | read back line by line after the header, there is exactly one `"[i+1] title - url"` line per result, in list order |
| OllamaPipeline.ReferenceLinesReadBack | src/graph.py:160 | the accumulated references split back into one `"[i+1] title - url"` line per result plus the empty piece after the last newline |
| OllamaPipeline.Research | src/graph.py:183-207 | the run fails exactly when the planner fails or, for a non-empty plan, a task or the writer fails; an empty plan gives no response; otherwise the response is the writer's output on the merged results |
| OllamaPipeline.WrittenReferences | src/graph.py:159-172 | read back after the header, the reference list has one line per result: line i is cited [i+1] and ends with result i's URL |
| OllamaPipeline.DispatchedReferences | src/graph.py:103-172 | when every query's path succeeds, the written reference list has one line per query, in query order: line i is cited [i+1] and ends with the URL of query i's first hit |
| OllamaPipeline.ResearchCitesEachQuery | src/graph.py:183-207 | a run whose plan has queries, each of whose paths succeeds, and whose synthesizer answers, ends with a response whose reference line i is cited [i+1] and ends with the URL of query i's first hit |

## Left out

- LLM, search and extraction calls (`ChatGroq`, `ChatOllama`, `TavilyClient`, and the `tavily_search` wrapper in `utils.py`). These are foreign network calls. They are parameters of the model that return a value or an exception.
- Prompt templates (`prompts.py` and the inline f-string in `gerar_queries` and `resumir`). They are plain `str.format` texts, so the model's summarizer and synthesizer take the template's arguments directly.
- The planner's structured output (`build_first_queries` in both graph files). This is a parameter `plan` that returns the list of queries or an exception.
- LangGraph wiring, `Send` and parallel execution. Dispatch is modelled as a sequential map over the queries in order, followed by the `operator.add` merge. The order in which LangGraph actually applies concurrent updates is library behaviour. The writer is wired only behind `single_search`, so an empty plan (no `Send`) ends the run without it. `Research` returns `None` for the then-unset `final_response`.
- OllamaPipeline.Dispatch: when several tasks fail, the model reports the first failing query's error. Which concurrent failure surfaces first is a scheduling matter. `spawn_researchers` (src/graph.py:80) is folded in: its tasks carry only their query, so Dispatch maps over the queries directly.
- Streamlit UI and session state (the bottom of `graph.py` and `src/graph.py`, and all of `src/app.py`), including the `</think>` split. These are presentation only.
- Logging through `print`. It has no effect on results.
- The `sintetizar` stub of `src/main.py`. Its body is empty, so `SearchState` carries no final answer.
- `main.py`, `schemas.py` and the `examples/` drivers: constants, declarations and scripts. They are not modelled.
- The `QueryResult` mismatch: `graph.py:20` imports the root `schemas.py`. That file's `QueryResult` requires `query`, `content` and `sources`, with no defaults. So every `QueryResult(title=…, url=…, resume=…)` at `graph.py:153-168` would raise a pydantic validation error as written, including the one in the `except` handler. Only the path with zero hits would return normally. The model follows the `title`/`url`/`resume` shape of `src/schemas.py` instead, where those fields default to `None`, and treats the validation error as out of scope.
- Pydantic validation of `QueryResult`. A `None` title or URL is kept and shows as "None" wherever it is printed (`Records.Show`). Validation that would reject it is not modelled.
- `max_results` and `include_raw_content` arguments of the search call. How many hits come back is the provider's concern. GroqPipeline.DispatchOnePerQuery states the one-hit case as a precondition.
- A `results` key holding `None` in a search response. `Response` models the key as absent or holding a list of hits, and hits are always dicts.
- In `src/graph.py`, a query whose extraction returns no page makes `single_search` return `None`. LangGraph treats that as no update; the model returns an empty update.
- In `graph.py`, the code produces one result per search hit, not one per query. The model follows the code; with the one-hit request this is one per query (GroqPipeline.DispatchOnePerQuery).
- GroqPipeline.PromptEntry: states an upper bound on the entry length rather than the exact length. The title and the cut resume between the citation and the blank line are the definition's text.

=== FILE: groq_pipeline.dfy ===
/** graph.py: the pipeline with a fast summarizer and a reasoning
    synthesizer. The planner's queries fan out to one research task each;
    a task searches, picks and cuts the content of each hit, summarizes it,
    and degrades to a single placeholder result on any exception; the
    writer numbers the results identically in the prompt and in the
    reference list it appends to the answer.

    The search client, the summarizer and the synthesizer are parameters:
    `search(query)` is the search response or the exception raised,
    `summarize(user_input, content)` and `synthesize(user_input, results)`
    are the model's reply to the prompt template filled with those values.
 */
module GroqPipeline {
  import opened Wrappers
  import opened Text
  import opened Records

  // ---------------------------------------------------------------------
  // Fan-out (graph.py:85-99)
  // ---------------------------------------------------------------------

  /** The payload of one `Send("single_search", ...)`. */
  datatype ResearchTask = ResearchTask(query: string, userInput: string)

  /** One task per query, in query order, each with the question. */
  function SpawnResearchers(queries: seq<string>, userInput: string): (tasks: seq<ResearchTask>)
    ensures |tasks| == |queries|
    ensures forall i :: 0 <= i < |tasks| ==> tasks[i].query == queries[i] && tasks[i].userInput == userInput
  {
    seq(|queries|, i requires 0 <= i < |queries| => ResearchTask(queries[i], userInput))
  }

  // ---------------------------------------------------------------------
  // One research task (graph.py:101-170)
  // ---------------------------------------------------------------------

  const ContentLimit: nat := 1500
  const Ellipsis := "..."
  const NoContent := "Conteúdo não disponível"

  /** What is done with one hit: summarize this text, or store this
      resume as is. */
  datatype Selection = Summarize(text: string) | Fallback(resume: string)

  /** The fallback chain raw_content -> content -> placeholder. */
  function SelectContent(h: Hit): (sel: Selection)
    // a non-empty raw content is what gets summarized
    ensures Truthy(h.rawContent) ==> sel == Summarize(h.rawContent.text)
    // without a raw_content key, the snippet stands in for it
    ensures h.rawContent.Missing? ==>
      sel == (if Truthy(h.content) then Summarize(h.content.text) else Fallback(NoContent))
    // a raw content that is None or empty is not summarized: the snippet,
    // or the placeholder when the snippet is empty too, is the resume
    ensures !h.rawContent.Missing? && !Truthy(h.rawContent) ==>
      sel == Fallback(if Truthy(h.content) then h.content.text else NoContent)
    ensures sel.Summarize? ==> |sel.text| > 0
    ensures sel.Fallback? ==> |sel.resume| > 0
  {
    var content := GetOr(h.content, "");
    var raw := if h.rawContent.Missing? then content else h.rawContent;
    if Truthy(raw) then Summarize(raw.text)
    else Fallback(if Truthy(content) then content.text else NoContent)
  }

  /** The text handed to the summarizer: at most 1500 characters, plus
      "..." when it was cut. */
  function CapContent(text: string): (capped: string)
    ensures |text| <= ContentLimit ==> capped == text
    ensures |text| > ContentLimit ==>
      && |capped| == ContentLimit + 3
      && capped[..ContentLimit] == text[..ContentLimit]
      && capped[ContentLimit..] == "..."
  {
    Truncate(text, ContentLimit, Ellipsis)
  }

  /** `result[key]`: an absent key raises KeyError. A `None` value is
      kept; every later use of a title or URL is an f-string, where it
      reads "None". */
  function Lookup(f: Field): (r: Result<string>)
    ensures r.Ok? <==> !f.Missing?
    ensures r.Err? ==> r.error == KeyError
    ensures f.Str? ==> r == Ok(f.text)
    ensures f.Null? ==> r == Ok("None")
  {
    if f.Missing? then Err(KeyError) else Ok(Show(f))
  }

  /** The body of the loop over the hits, for one hit. */
  function ResearchHit(h: Hit, userInput: string, summarize: (string, string) -> Result<string>): (r: Result<QueryResult>)
    ensures r.Ok? <==>
      && !h.title.Missing? && !h.url.Missing?
      && (SelectContent(h).Summarize? ==> summarize(userInput, CapContent(SelectContent(h).text)).Ok?)
    ensures r.Ok? ==> r.value.title == Show(h.title) && r.value.url == Show(h.url)
    ensures r.Ok? && SelectContent(h).Summarize? ==>
      r.value.resume == summarize(userInput, CapContent(SelectContent(h).text)).value
    ensures r.Ok? && SelectContent(h).Fallback? ==> r.value.resume == SelectContent(h).resume
  {
    var url :- Lookup(h.url);
    var title :- Lookup(h.title);
    match SelectContent(h)
    case Summarize(text) =>
      var resume :- summarize(userInput, CapContent(text));
      Ok(QueryResult(title, url, resume))
    case Fallback(resume) =>
      Ok(QueryResult(title, url, resume))
  }

  /** The loop over the hits: one result per hit, in order, unless some hit
      raises. */
  function ResearchHits(hits: seq<Hit>, userInput: string, summarize: (string, string) -> Result<string>): (r: Result<seq<QueryResult>>)
    ensures r.Ok? <==> forall i :: 0 <= i < |hits| ==> ResearchHit(hits[i], userInput, summarize).Ok?
    ensures r.Ok? ==> |r.value| == |hits|
    ensures r.Ok? ==> forall i :: 0 <= i < |hits| ==> ResearchHit(hits[i], userInput, summarize) == Ok(r.value[i])
  {
    if |hits| == 0 then Ok([])
    else
      var first :- ResearchHit(hits[0], userInput, summarize);
      var rest :- ResearchHits(hits[1..], userInput, summarize);
      assert forall i :: 1 <= i < |hits| ==> hits[i] == hits[1..][i - 1];
      Ok([first] + rest)
  }

  /** The result recorded for a query whose research raised. */
  function Degraded(query: string): (r: QueryResult)
    ensures r.url == "#"
    // the title and the resume name the query that failed
    ensures r.title == "Busca: " + query && r.title[7..] == query
    ensures r.resume == "Erro ao buscar informações sobre: " + query
    ensures |r.resume| > |query|
  {
    QueryResult("Busca: " + query, "#", "Erro ao buscar informações sobre: " + query)
  }

  /** `single_search`: the results of one task. */
  function SingleSearch(task: ResearchTask, search: string -> Result<Response>,
                        summarize: (string, string) -> Result<string>): (results: seq<QueryResult>)
    // a failing search, or a response without 'results', degrades
    ensures search(task.query).Err? || search(task.query).value.results.None? ==>
      results == [Degraded(task.query)]
    // otherwise: one result per hit, each the loop body's result for its
    // hit, if no hit raises; the single degraded result, discarding the
    // others, if any does
    ensures (&& search(task.query).Ok? && search(task.query).value.results.Some?
             && forall i :: 0 <= i < |search(task.query).value.results.value| ==>
                  ResearchHit(search(task.query).value.results.value[i], task.userInput, summarize).Ok?) ==>
      && |results| == |search(task.query).value.results.value|
      && forall i :: 0 <= i < |results| ==>
           ResearchHit(search(task.query).value.results.value[i], task.userInput, summarize) == Ok(results[i])
    ensures (&& search(task.query).Ok? && search(task.query).value.results.Some?
             && exists i :: 0 <= i < |search(task.query).value.results.value| &&
                  ResearchHit(search(task.query).value.results.value[i], task.userInput, summarize).Err?) ==>
      results == [Degraded(task.query)]
  {
    match search(task.query)
    case Err(_) => [Degraded(task.query)]
    case Ok(resp) =>
      if resp.results.None? then [Degraded(task.query)]
      else
        match ResearchHits(resp.results.value, task.userInput, summarize)
        case Err(_) => [Degraded(task.query)]
        case Ok(rs) => rs
  }

  /** A query whose search finds nothing contributes no result at all. */
  lemma NoHitsNoResult(task: ResearchTask, search: string -> Result<Response>,
                       summarize: (string, string) -> Result<string>)
    requires search(task.query) == Ok(Response(Some([])))
    ensures SingleSearch(task, search, summarize) == []
  {
  }

  /** The update each task sends back, in task order. */
  function Updates(tasks: seq<ResearchTask>, search: string -> Result<Response>,
                   summarize: (string, string) -> Result<string>): (us: seq<seq<QueryResult>>)
    ensures |us| == |tasks|
  {
    if |tasks| == 0 then []
    else Updates(tasks[..|tasks| - 1], search, summarize) + [SingleSearch(tasks[|tasks| - 1], search, summarize)]
  }

  /** The parallel `single_search` runs, merged with `operator.add` in task
      order. */
  function Dispatch(queries: seq<string>, userInput: string, search: string -> Result<Response>,
                    summarize: (string, string) -> Result<string>): (results: seq<QueryResult>)
    ensures |results| == TotalLength(Updates(SpawnResearchers(queries, userInput), search, summarize))
  {
    FanIn(Updates(SpawnResearchers(queries, userInput), search, summarize))
  }

  lemma {:induction false} UpdatesAppend(a: seq<ResearchTask>, b: seq<ResearchTask>, search: string -> Result<Response>,
                                         summarize: (string, string) -> Result<string>)
    ensures Updates(a + b, search, summarize) == Updates(a, search, summarize) + Updates(b, search, summarize)
    decreases |b|
  {
    if |b| == 0 {
      assert a + b == a;
    } else {
      var b', last := b[..|b| - 1], b[|b| - 1];
      assert (a + b)[..|a + b| - 1] == a + b';
      assert (a + b)[|a + b| - 1] == last;
      calc {
        Updates(a + b, search, summarize);
        Updates(a + b', search, summarize) + [SingleSearch(last, search, summarize)];
        { UpdatesAppend(a, b', search, summarize); }
        Updates(a, search, summarize) + Updates(b', search, summarize) + [SingleSearch(last, search, summarize)];
        Updates(a, search, summarize) + Updates(b, search, summarize);
      }
    }
  }

  /** The merge keeps task order: the results of `a + b` are those of `a`
      followed by those of `b`. */
  lemma DispatchAppend(a: seq<string>, b: seq<string>, userInput: string,
                       search: string -> Result<Response>, summarize: (string, string) -> Result<string>)
    ensures Dispatch(a + b, userInput, search, summarize)
         == Dispatch(a, userInput, search, summarize) + Dispatch(b, userInput, search, summarize)
  {
    var ta, tb := SpawnResearchers(a, userInput), SpawnResearchers(b, userInput);
    assert SpawnResearchers(a + b, userInput) == ta + tb;
    UpdatesAppend(ta, tb, search, summarize);
    FanInAppend(Updates(ta, search, summarize), Updates(tb, search, summarize));
  }

  /** A single query contributes exactly its own task's results. */
  lemma DispatchSingle(q: string, userInput: string,
                       search: string -> Result<Response>, summarize: (string, string) -> Result<string>)
    ensures Dispatch([q], userInput, search, summarize) == SingleSearch(ResearchTask(q, userInput), search, summarize)
  {
    var t := [ResearchTask(q, userInput)];
    assert SpawnResearchers([q], userInput) == t;
    assert t[..0] == [];
    var u := Updates(t, search, summarize);
    assert u == [SingleSearch(t[0], search, summarize)];
    assert u[..0] == [];
  }

  /** At most one result per hit requested: when every search fails or
      returns exactly one hit (the `max_results=1` request), there is
      exactly one result per query. */
  lemma DispatchOnePerQuery(queries: seq<string>, userInput: string, search: string -> Result<Response>,
                            summarize: (string, string) -> Result<string>)
    requires forall i :: 0 <= i < |queries| ==>
      search(queries[i]).Err? || search(queries[i]).value.results.None? || |search(queries[i]).value.results.value| == 1
    ensures |Dispatch(queries, userInput, search, summarize)| == |queries|
  {
    OneResultEach(SpawnResearchers(queries, userInput), search, summarize);
  }

  lemma {:induction false} OneResultEach(tasks: seq<ResearchTask>, search: string -> Result<Response>,
                                         summarize: (string, string) -> Result<string>)
    requires forall i :: 0 <= i < |tasks| ==>
      search(tasks[i].query).Err? || search(tasks[i].query).value.results.None?
      || |search(tasks[i].query).value.results.value| == 1
    ensures TotalLength(Updates(tasks, search, summarize)) == |tasks|
  {
    if |tasks| > 0 {
      var init := tasks[..|tasks| - 1];
      assert forall i :: 0 <= i < |init| ==> init[i] == tasks[i];
      OneResultEach(init, search, summarize);
      var us := Updates(tasks, search, summarize);
      assert us[..|us| - 1] == Updates(init, search, summarize);
      assert |us[|us| - 1]| == 1;
    }
  }

  // ---------------------------------------------------------------------
  // Synthesis (graph.py:172-216)
  // ---------------------------------------------------------------------

  const SummaryLimit: nat := 300
  const ReferencesHeader := "\n\n References:\n"

  /** The resume as shown to the synthesizer: at most 300 characters, plus
      "..." when it was cut. */
  function CapSummary(resume: string): (capped: string)
    ensures |resume| <= SummaryLimit ==> capped == resume
    ensures |resume| > SummaryLimit ==>
      && |capped| == SummaryLimit + 3
      && capped[..SummaryLimit] == resume[..SummaryLimit]
      && capped[SummaryLimit..] == "..."
  {
    Truncate(resume, SummaryLimit, Ellipsis)
  }

  /** The `i`-th (0-based) entry of the evidence in the prompt: it opens
      with citation i+1 and closes with the cut resume, so it stays
      bounded whatever the resume's length. */
  function PromptEntry(i: nat, r: QueryResult): (e: string)
    ensures LeadingCitation(e) == Some(i + 1)
    ensures |e| <= |NatToString(i + 1)| + |r.title| + SummaryLimit + 9
    ensures |CapSummary(r.resume)| + 2 <= |e|
    ensures e[|e| - |CapSummary(r.resume)| - 2..] == CapSummary(r.resume) + "\n\n"
  {
    var rest := " " + r.title + "\n" + CapSummary(r.resume) + "\n\n";
    LeadingCitationOf(i + 1, rest);
    "[" + NatToString(i + 1) + "]" + rest
  }

  /** The `i`-th (0-based) line of the reference list, without its
      newline: it opens with citation i+1 and spans one line when the
      title and URL do. */
  function ReferenceLine(i: nat, r: QueryResult): (l: string)
    ensures LeadingCitation(l) == Some(i + 1)
    ensures '\n' !in l <==> '\n' !in r.title && '\n' !in r.url
  {
    var rest := " - [" + r.title + "](" + r.url + ")";
    LeadingCitationOf(i + 1, rest);
    assert "[" + NatToString(i + 1) + "] - [" + r.title + "](" + r.url + ")" == "[" + NatToString(i + 1) + "]" + rest;
    "[" + NatToString(i + 1) + "] - [" + r.title + "](" + r.url + ")"
  }

  function PromptEntries(rs: seq<QueryResult>): seq<string>
  {
    seq(|rs|, i requires 0 <= i < |rs| => PromptEntry(i, rs[i]))
  }

  function ReferenceLines(rs: seq<QueryResult>): seq<string>
  {
    seq(|rs|, i requires 0 <= i < |rs| => ReferenceLine(i, rs[i]))
  }

  /** `final_writer`: the synthesizer's answer followed by the reference
      list; a failing synthesizer is fatal. */
  function FinalWriter(userInput: string, rs: seq<QueryResult>,
                       synthesize: (string, string) -> Result<string>): (r: Result<string>)
    ensures r.Ok? <==> synthesize(userInput, Concat(PromptEntries(rs))).Ok?
    ensures r.Ok? ==>
      var answer := synthesize(userInput, Concat(PromptEntries(rs))).value;
      && |r.value| >= |answer| + |ReferencesHeader|
      && r.value[..|answer|] == answer
      && r.value[|answer|..|answer| + |ReferencesHeader|] == ReferencesHeader
    ensures r.Ok? && |rs| == 0 ==>
      r.value == synthesize(userInput, "").value + ReferencesHeader
  {
    var answer :- synthesize(userInput, Concat(PromptEntries(rs)));
    var text := answer + ReferencesHeader + JoinLines(ReferenceLines(rs));
    assert text[..|answer|] == answer;
    assert text[|answer|..|answer| + |ReferencesHeader|] == ReferencesHeader;
    Ok(text)
  }

  /** The i-th result gets the number i+1 both in the prompt and in the
      reference list. */
  lemma CitationsAgree(rs: seq<QueryResult>, i: nat)
    requires i < |rs|
    ensures LeadingCitation(PromptEntries(rs)[i]) == Some(i + 1)
    ensures LeadingCitation(ReferenceLines(rs)[i]) == Some(i + 1)
  {
  }

  /** Read back line by line, the part after the header holds exactly one
      `"[i+1] - [title](url)"` line per result, in list order, when no
      title or URL spans lines. */
  lemma FinalWriterReferences(userInput: string, rs: seq<QueryResult>,
                              synthesize: (string, string) -> Result<string>)
    requires synthesize(userInput, Concat(PromptEntries(rs))).Ok?
    requires forall i :: 0 <= i < |rs| ==> '\n' !in rs[i].title && '\n' !in rs[i].url
    ensures FinalWriter(userInput, rs, synthesize).Ok?
    ensures
      var answer := synthesize(userInput, Concat(PromptEntries(rs))).value;
      var lines := Split(FinalWriter(userInput, rs, synthesize).value[|answer| + |ReferencesHeader|..], '\n');
      && |lines| == |rs| + 1
      && lines[|rs|] == ""
      && forall i :: 0 <= i < |rs| ==>
           lines[i] == "[" + NatToString(i + 1) + "] - [" + rs[i].title + "](" + rs[i].url + ")"
  {
    var answer := synthesize(userInput, Concat(PromptEntries(rs))).value;
    var text := FinalWriter(userInput, rs, synthesize).value;
    assert text[|answer| + |ReferencesHeader|..] == JoinLines(ReferenceLines(rs));
    ReferenceLinesReadBack(rs);
  }

  /** The reference lines, joined with a newline after each, split back
      into those lines plus the empty piece after the last newline. */
  lemma ReferenceLinesReadBack(rs: seq<QueryResult>)
    requires forall i :: 0 <= i < |rs| ==> '\n' !in rs[i].title && '\n' !in rs[i].url
    ensures var lines := Split(JoinLines(ReferenceLines(rs)), '\n');
      && |lines| == |rs| + 1
      && lines[|rs|] == ""
      && forall i :: 0 <= i < |rs| ==>
           lines[i] == "[" + NatToString(i + 1) + "] - [" + rs[i].title + "](" + rs[i].url + ")"
  {
    var ls := ReferenceLines(rs);
    forall l | l in ls ensures '\n' !in l {
      var i :| 0 <= i < |ls| && ls[i] == l;
      assert l == ReferenceLine(i, rs[i]);
    }
    SplitJoinLines(ls);
    forall i | 0 <= i < |rs|
      ensures ls[i] == "[" + NatToString(i + 1) + "] - [" + rs[i].title + "](" + rs[i].url + ")"
    {
      assert ls[i] == ReferenceLine(i, rs[i]);
    }
  }

  // ---------------------------------------------------------------------
  // The whole run (graph.py:58-83 and 226-242)
  // ---------------------------------------------------------------------

  /** One run: plan the queries, research each, write the answer. The
      planner's structured output is a parameter; its failure is fatal.
      The writer runs only after the researchers, so an empty plan ends
      the run with no `final_response` (None here). */
  function Research(userInput: string, plan: string -> Result<seq<string>>,
                    search: string -> Result<Response>, summarize: (string, string) -> Result<string>,
                    synthesize: (string, string) -> Result<string>): (r: Result<Option<string>>)
    // only the planner and the synthesizer can make the run fail
    ensures r.Err? <==>
      || plan(userInput).Err?
      || (plan(userInput).value != []
          && FinalWriter(userInput, Dispatch(plan(userInput).value, userInput, search, summarize), synthesize).Err?)
    ensures plan(userInput) == Ok([]) ==> r == Ok(None)
    ensures r.Ok? ==> (r.value.None? <==> plan(userInput).value == [])
    ensures r.Ok? && r.value.Some? ==>
      FinalWriter(userInput, Dispatch(plan(userInput).value, userInput, search, summarize), synthesize)
        == Ok(r.value.value)
  {
    var queries :- plan(userInput);
    if |queries| == 0 then Ok(None)
    else
      var answer :- FinalWriter(userInput, Dispatch(queries, userInput, search, summarize), synthesize);
      Ok(Some(answer))
  }

  /** A run whose plan has queries, whose searches each fail or return the
      one hit requested, and whose synthesizer answers, ends with an answer
      whose reference list has one line per query, cited [1], [2], ... in
      query order. */
  lemma ResearchCitesEachQuery(userInput: string, plan: string -> Result<seq<string>>,
                               search: string -> Result<Response>, summarize: (string, string) -> Result<string>,
                               synthesize: (string, string) -> Result<string>)
    requires plan(userInput).Ok? && |plan(userInput).value| > 0
    requires var qs := plan(userInput).value;
      forall i :: 0 <= i < |qs| ==>
        search(qs[i]).Err? || search(qs[i]).value.results.None? || |search(qs[i]).value.results.value| == 1
    requires var rs := Dispatch(plan(userInput).value, userInput, search, summarize);
      && synthesize(userInput, Concat(PromptEntries(rs))).Ok?
      && forall i :: 0 <= i < |rs| ==> '\n' !in rs[i].title && '\n' !in rs[i].url
    ensures Research(userInput, plan, search, summarize, synthesize).Ok?
    ensures Research(userInput, plan, search, summarize, synthesize).value.Some?
    ensures
      var qs := plan(userInput).value;
      var answer := synthesize(userInput, Concat(PromptEntries(Dispatch(qs, userInput, search, summarize)))).value;
      var text := Research(userInput, plan, search, summarize, synthesize).value.value;
      var lines := Split(text[|answer| + |ReferencesHeader|..], '\n');
      && |lines| == |qs| + 1
      && forall i :: 0 <= i < |qs| ==> LeadingCitation(lines[i]) == Some(i + 1)
  {
    var qs := plan(userInput).value;
    var rs := Dispatch(qs, userInput, search, summarize);
    DispatchOnePerQuery(qs, userInput, search, summarize);
    FinalWriterReferences(userInput, rs, synthesize);
    var answer := synthesize(userInput, Concat(PromptEntries(rs))).value;
    var text := FinalWriter(userInput, rs, synthesize).value;
    var lines := Split(text[|answer| + |ReferencesHeader|..], '\n');
    forall i | 0 <= i < |qs| ensures LeadingCitation(lines[i]) == Some(i + 1) {
      assert lines[i] == ReferenceLine(i, rs[i]);
    }
  }
}

=== FILE: line_pipeline.dfy ===
/** src/main.py: the sequential variant. The planner answers with one
    query per line; the lines are cleaned and capped; every query is
    searched in turn and every hit kept as a flat record; every record is
    summarized, dropping the ones that fail or come back blank.

    The planner's reply is an input; `search(query)` is the search
    response or the exception raised, `summarize(title, content)` is the
    model's reply to the summary prompt filled with the record's title and
    content.
 */
module LinePipeline {
  import opened Wrappers
  import opened Text
  import opened Records

  // ---------------------------------------------------------------------
  // Query planning (src/main.py:46-78)
  // ---------------------------------------------------------------------

  const MinQueryLength: nat := 5
  const MaxQueries: nat := 5

  /** Reference definition: the stripped lines longer than five
      characters, in line order. */
  function Qualifying(lines: seq<string>): (qs: seq<string>)
    ensures |qs| <= |lines|
  {
    if |lines| == 0 then []
    else
      var line := Strip(lines[|lines| - 1]);
      Qualifying(lines[..|lines| - 1]) + (if |line| > MinQueryLength then [line] else [])
  }

  /** Every qualifying line is a clean query; none spans lines when the
      input lines do not. */
  lemma {:induction false} QualifyingShape(lines: seq<string>)
    ensures forall q | q in Qualifying(lines) :: |q| > MinQueryLength && Trimmed(q)
    ensures (forall l | l in lines :: '\n' !in l) ==> forall q | q in Qualifying(lines) :: '\n' !in q
  {
    if |lines| > 0 {
      var init, last := lines[..|lines| - 1], lines[|lines| - 1];
      QualifyingShape(init);
      assert forall l | l in init :: l in lines;
      if '\n' !in last {
        NoNewlineAfterStrip(last);
      }
    }
  }

  /** The queries `gerar_queries` extracts from the planner's reply: the
      first five qualifying lines. */
  function ParseQueries(reply: string): (queries: seq<string>)
    ensures |queries| <= MaxQueries
    ensures forall q | q in queries :: |q| > MinQueryLength && Trimmed(q) && '\n' !in q
  {
    FirstQualifying(Split(reply, '\n'))
  }

  /** The first five qualifying lines. */
  function FirstQualifying(lines: seq<string>): (queries: seq<string>)
    ensures |queries| <= MaxQueries
    ensures queries <= Qualifying(lines)
    ensures |queries| == MaxQueries || queries == Qualifying(lines)
    ensures (forall l | l in lines :: '\n' !in l) ==>
      forall q | q in queries :: |q| > MinQueryLength && Trimmed(q) && '\n' !in q
  {
    var qs := Qualifying(lines);
    QualifyingShape(lines);
    if |qs| <= MaxQueries then qs
    else
      assert forall q | q in qs[..MaxQueries] :: q in qs;
      qs[..MaxQueries]
  }

  lemma NoNewlineAfterStrip(l: string)
    requires '\n' !in l
    ensures '\n' !in Strip(l)
  {
    var r := Strip(l);
    var i := LeadingSpaces(l);
    StripIsInfix(l);
    forall k | 0 <= k < |r| ensures r[k] != '\n' {
      assert r[k] == l[i + k];
    }
  }

  /** The filter only ever extends its result as more lines are read. */
  lemma {:induction false} QualifyingPrefix(lines: seq<string>, i: nat)
    requires i <= |lines|
    ensures Qualifying(lines[..i]) <= Qualifying(lines)
    decreases |lines|
  {
    if i < |lines| {
      var init := lines[..|lines| - 1];
      assert lines[..i] == init[..i];
      QualifyingPrefix(init, i);
    } else {
      assert lines[..i] == lines;
    }
  }

  /** The loop of `gerar_queries` as written, with its early `break` once
      five queries are collected. */
  method CollectQueries(reply: string) returns (queries: seq<string>)
    ensures queries == ParseQueries(reply)
  {
    queries := TakeQueries(Split(reply, '\n'));
  }

  method TakeQueries(lines: seq<string>) returns (queries: seq<string>)
    ensures queries == FirstQualifying(lines)
  {
    queries := [];
    var i := 0;
    while i < |lines|
      invariant 0 <= i <= |lines|
      invariant queries == Qualifying(lines[..i])
      invariant |queries| < MaxQueries
    {
      var line := Strip(lines[i]);
      QualifyingStep(lines, i);
      if |line| > 0 && |line| > MinQueryLength {
        queries := queries + [line];
      }
      i := i + 1;
      if |queries| >= MaxQueries {
        FirstQualifyingReached(lines, i);
        return;
      }
    }
    FirstQualifyingReached(lines, i);
  }

  /** Once the lines read so far yield five queries, or all lines are
      read, the queries collected are the first qualifying ones. */
  lemma FirstQualifyingReached(lines: seq<string>, i: nat)
    requires i <= |lines|
    requires |Qualifying(lines[..i])| == MaxQueries || i == |lines|
    requires |Qualifying(lines[..i])| <= MaxQueries
    ensures FirstQualifying(lines) == Qualifying(lines[..i])
  {
    QualifyingPrefix(lines, i);
    if i == |lines| {
      assert lines[..i] == lines;
    }
  }

  /** A reply that already lists at most five clean queries, one per line,
      is read back as exactly those queries. */
  lemma {:induction false} ParseQueriesOfLines(queries: seq<string>)
    requires 1 <= |queries| <= MaxQueries
    requires forall q | q in queries :: |q| > MinQueryLength && Trimmed(q) && '\n' !in q
    ensures ParseQueries(Join(queries, '\n')) == queries
  {
    SplitJoin(queries, '\n');
    QualifyingOfClean(queries);
  }

  lemma {:induction false} QualifyingOfClean(lines: seq<string>)
    requires forall q | q in lines :: |q| > MinQueryLength && Trimmed(q)
    ensures Qualifying(lines) == lines
  {
    if |lines| > 0 {
      var init, last := lines[..|lines| - 1], lines[|lines| - 1];
      assert lines == init + [last];
      assert forall q | q in init :: q in lines;
      QualifyingOfClean(init);
      StripPadded([], last, []);
      assert [] + last + [] == last;
      QualifyingSnoc(init, last);
    }
  }

  /** Reading one more line appends its stripped form when it qualifies. */
  lemma QualifyingSnoc(lines: seq<string>, line: string)
    ensures Qualifying(lines + [line]) ==
      Qualifying(lines) + (if |Strip(line)| > MinQueryLength then [Strip(line)] else [])
  {
    assert (lines + [line])[..|lines|] == lines;
  }

  lemma QualifyingStep(lines: seq<string>, i: nat)
    requires i < |lines|
    ensures Qualifying(lines[..i + 1]) ==
      Qualifying(lines[..i]) + (if |Strip(lines[i])| > MinQueryLength then [Strip(lines[i])] else [])
  {
    assert lines[..i + 1] == lines[..i] + [lines[i]];
    QualifyingSnoc(lines[..i], lines[i]);
  }

  /** Blank and short lines are ignored wherever they appear. */
  lemma ShortLineIgnored(lines: seq<string>, short: string)
    requires |Strip(short)| <= MinQueryLength
    ensures Qualifying(lines + [short]) == Qualifying(lines)
  {
    QualifyingSnoc(lines, short);
  }

  // ---------------------------------------------------------------------
  // Searching (src/main.py:80-104)
  // ---------------------------------------------------------------------

  /** One entry of `resultados_brutos`: the query and the hit's fields,
      absent keys read as "". */
  datatype RawRecord = RawRecord(query: string, title: Field, url: Field, content: Field)

  function RecordOf(query: string, h: Hit): (r: RawRecord)
    ensures r.query == query
    ensures !r.title.Missing? && !r.url.Missing? && !r.content.Missing?
    ensures h.title.Missing? ==> r.title == Str("")
    ensures !h.title.Missing? ==> r.title == h.title
    ensures h.url.Missing? ==> r.url == Str("")
    ensures !h.url.Missing? ==> r.url == h.url
    ensures h.content.Missing? ==> r.content == Str("")
    ensures !h.content.Missing? ==> r.content == h.content
  {
    RawRecord(query, GetOr(h.title, ""), GetOr(h.url, ""), GetOr(h.content, ""))
  }

  /** The records one query contributes: none if the search raises or the
      response has no 'results'. */
  function SearchOne(query: string, search: string -> Result<Response>): (recs: seq<RawRecord>)
    ensures search(query).Err? ==> recs == []
    ensures search(query).Ok? && search(query).value.results.Some? ==>
      |recs| == |search(query).value.results.value|
    ensures search(query).Ok? && search(query).value.results.None? ==> recs == []
    ensures forall i :: 0 <= i < |recs| ==>
      recs[i] == RecordOf(query, search(query).value.results.value[i])
  {
    match search(query)
    case Err(_) => []
    case Ok(resp) =>
      if resp.results.None? then []
      else seq(|resp.results.value|, i requires 0 <= i < |resp.results.value| => RecordOf(query, resp.results.value[i]))
  }

  /** `buscar_paralelo`: the records of all queries, in query order. No
      query gives nothing, one query gives its own records; SearchAllAppend
      composes the rest. */
  function SearchAll(queries: seq<string>, search: string -> Result<Response>): (recs: seq<RawRecord>)
    ensures |queries| == 0 ==> recs == []
    ensures |queries| == 1 ==> recs == SearchOne(queries[0], search)
  {
    if |queries| == 0 then []
    else SearchAll(queries[..|queries| - 1], search) + SearchOne(queries[|queries| - 1], search)
  }

  /** Every record carries the query that found it, and no field of a
      record is absent. */
  lemma {:induction false} SearchAllShape(queries: seq<string>, search: string -> Result<Response>)
    ensures forall r | r in SearchAll(queries, search) :: r.query in queries
    ensures forall r | r in SearchAll(queries, search) :: !r.title.Missing? && !r.url.Missing? && !r.content.Missing?
  {
    if |queries| > 0 {
      var init := queries[..|queries| - 1];
      SearchAllShape(init, search);
      assert forall q | q in init :: q in queries;
    }
  }

  /** Searching two batches of queries gives the records of the first
      batch followed by those of the second. */
  lemma {:induction false} SearchAllAppend(a: seq<string>, b: seq<string>, search: string -> Result<Response>)
    ensures SearchAll(a + b, search) == SearchAll(a, search) + SearchAll(b, search)
    decreases |b|
  {
    if |b| == 0 {
      assert a + b == a;
    } else {
      var b', last := b[..|b| - 1], b[|b| - 1];
      assert (a + b)[..|a + b| - 1] == a + b';
      assert (a + b)[|a + b| - 1] == last;
      calc {
        SearchAll(a + b, search);
        SearchAll(a + b', search) + SearchOne(last, search);
        { SearchAllAppend(a, b', search); }
        SearchAll(a, search) + SearchAll(b', search) + SearchOne(last, search);
        SearchAll(a, search) + (SearchAll(b', search) + SearchOne(last, search));
        SearchAll(a, search) + SearchAll(b, search);
      }
    }
  }

  /** A query whose search raises is skipped: the others' records are
      unaffected. */
  lemma FailingQuerySkipped(a: seq<string>, q: string, b: seq<string>, search: string -> Result<Response>)
    requires search(q).Err?
    ensures SearchAll(a + [q] + b, search) == SearchAll(a + b, search)
  {
    assert SearchAll([q], search) == [] by {
      assert [q][..0] == [];
    }
    calc {
      SearchAll(a + [q] + b, search);
      { SearchAllAppend(a + [q], b, search); }
      SearchAll(a + [q], search) + SearchAll(b, search);
      { SearchAllAppend(a, [q], search); }
      SearchAll(a, search) + SearchAll(b, search);
      { SearchAllAppend(a, b, search); }
      SearchAll(a + b, search);
    }
  }

  // ---------------------------------------------------------------------
  // Summarizing (src/main.py:106-132)
  // ---------------------------------------------------------------------

  /** One pass of `resumir`'s loop: reading `title` or `content` of a
      record that lacks them raises outside the `try`; a failing call is
      skipped; a reply that strips to nothing adds no summary. */
  function SummarizeOne(rec: RawRecord, summarize: (string, string) -> Result<string>): (r: Result<seq<string>>)
    ensures r.Ok? <==> !rec.title.Missing? && !rec.content.Missing?
    ensures r.Err? ==> r.error == KeyError
    ensures r.Ok? ==> |r.value| <= 1
    // a failed call, or a reply that strips to nothing, adds no summary
    ensures r.Ok? && summarize(Show(rec.title), Show(rec.content)).Err? ==> r == Ok([])
    ensures (&& r.Ok? && summarize(Show(rec.title), Show(rec.content)).Ok?
             && |Strip(summarize(Show(rec.title), Show(rec.content)).value)| == 0) ==> r == Ok([])
  {
    if rec.title.Missing? || rec.content.Missing? then Err(KeyError)
    else
      match summarize(Show(rec.title), Show(rec.content))
      case Err(_) => Ok([])
      case Ok(reply) =>
        var s := Strip(reply);
        Ok(if |s| > 0 then [s] else [])
  }

  /** The record can be read and its call yields a reply that is not
      blank. */
  predicate Summarizable(rec: RawRecord, summarize: (string, string) -> Result<string>)
  {
    && !rec.title.Missing? && !rec.content.Missing?
    && summarize(Show(rec.title), Show(rec.content)).Ok?
    && |Strip(summarize(Show(rec.title), Show(rec.content)).value)| > 0
  }

  /** The summary of a summarizable record: its reply, stripped. */
  function SummaryOf(rec: RawRecord, summarize: (string, string) -> Result<string>): string
    requires Summarizable(rec, summarize)
  {
    Strip(summarize(Show(rec.title), Show(rec.content)).value)
  }

  /** A summarizable record yields exactly its stripped reply. */
  lemma SummarizeOneSucceeds(rec: RawRecord, summarize: (string, string) -> Result<string>)
    requires Summarizable(rec, summarize)
    ensures SummarizeOne(rec, summarize) == Ok([SummaryOf(rec, summarize)])
  {
  }

  /** `resumir`: one stripped, non-empty summary per record whose call
      succeeds, in record order; a record without `title` or `content`
      aborts the step. */
  function Summaries(recs: seq<RawRecord>, summarize: (string, string) -> Result<string>): (r: Result<seq<string>>)
    ensures r.Ok? <==> forall i :: 0 <= i < |recs| ==> !recs[i].title.Missing? && !recs[i].content.Missing?
    ensures r.Err? ==> r.error == KeyError
    ensures r.Ok? ==> |r.value| <= |recs|
  {
    if |recs| == 0 then Ok([])
    else
      var init := recs[..|recs| - 1];
      assert forall i :: 0 <= i < |init| ==> init[i] == recs[i];
      var done :- Summaries(init, summarize);
      var update :- SummarizeOne(recs[|recs| - 1], summarize);
      Ok(done + update)
  }

  /** Every summary is a non-blank reply, stripped. */
  lemma {:induction false} SummariesTrimmed(recs: seq<RawRecord>, summarize: (string, string) -> Result<string>)
    requires Summaries(recs, summarize).Ok?
    ensures forall s | s in Summaries(recs, summarize).value :: |s| > 0 && Trimmed(s)
  {
    if |recs| > 0 {
      var init, last := recs[..|recs| - 1], recs[|recs| - 1];
      SummariesTrimmed(init, summarize);
      SummariesStep(recs, summarize);
      var update := SummarizeOne(last, summarize).value;
      assert forall s | s in update :: |s| > 0 && Trimmed(s) by {
        if |update| > 0 {
          var reply := summarize(Show(last.title), Show(last.content)).value;
          assert update == [Strip(reply)];
        }
      }
    }
  }

  /** One summary per record, in record order. */
  function SummaryList(recs: seq<RawRecord>, summarize: (string, string) -> Result<string>): seq<string>
    requires forall i :: 0 <= i < |recs| ==> Summarizable(recs[i], summarize)
  {
    seq(|recs|, i requires 0 <= i < |recs| && Summarizable(recs[i], summarize) => SummaryOf(recs[i], summarize))
  }

  /** When every call succeeds with a reply that is not blank, there is one
      summary per record, each the stripped reply, in record order. */
  lemma {:induction false} SummariesComplete(recs: seq<RawRecord>, summarize: (string, string) -> Result<string>)
    requires forall i :: 0 <= i < |recs| ==> Summarizable(recs[i], summarize)
    ensures Summaries(recs, summarize) == Ok(SummaryList(recs, summarize))
  {
    if |recs| > 0 {
      var init, last := recs[..|recs| - 1], recs[|recs| - 1];
      forall i | 0 <= i < |init| ensures Summarizable(init[i], summarize) {
        assert init[i] == recs[i];
      }
      SummariesComplete(init, summarize);
      SummarizeOneSucceeds(last, summarize);
      SummariesStep(recs, summarize);
      SummaryListSnoc(recs, init, last, summarize);
      calc {
        Summaries(recs, summarize);
        Ok(Summaries(init, summarize).value + SummarizeOne(last, summarize).value);
        Ok(SummaryList(init, summarize) + [SummaryOf(last, summarize)]);
        Ok(SummaryList(recs, summarize));
      }
    } else {
      assert SummaryList(recs, summarize) == [];
    }
  }

  lemma SummaryListSnoc(recs: seq<RawRecord>, init: seq<RawRecord>, last: RawRecord,
                        summarize: (string, string) -> Result<string>)
    requires |recs| > 0 && init == recs[..|recs| - 1] && last == recs[|recs| - 1]
    requires forall i :: 0 <= i < |recs| ==> Summarizable(recs[i], summarize)
    requires forall i :: 0 <= i < |init| ==> Summarizable(init[i], summarize)
    ensures SummaryList(recs, summarize) == SummaryList(init, summarize) + [SummaryOf(last, summarize)]
  {
  }

  /** One step of `resumir`'s loop: the last record's summaries land after
      the others'. */
  lemma SummariesStep(recs: seq<RawRecord>, summarize: (string, string) -> Result<string>)
    requires |recs| > 0
    requires Summaries(recs[..|recs| - 1], summarize).Ok?
    requires SummarizeOne(recs[|recs| - 1], summarize).Ok?
    ensures Summaries(recs, summarize)
         == Ok(Summaries(recs[..|recs| - 1], summarize).value + SummarizeOne(recs[|recs| - 1], summarize).value)
  {
  }

  /** The records `buscar_paralelo` produces never make `resumir` raise. */
  lemma SummariesOfSearch(queries: seq<string>, search: string -> Result<Response>,
                          summarize: (string, string) -> Result<string>)
    ensures Summaries(SearchAll(queries, search), summarize).Ok?
  {
    var recs := SearchAll(queries, search);
    SearchAllShape(queries, search);
    assert forall i :: 0 <= i < |recs| ==> recs[i] in recs;
  }

  // ---------------------------------------------------------------------
  // The whole run (src/main.py:37-42 and 138-155)
  // ---------------------------------------------------------------------

  /** The state after `resumir`; `sintetizar` is a stub that adds
      nothing. */
  datatype SearchState = SearchState(question: string, queries: seq<string>, records: seq<RawRecord>, summaries: seq<string>)

  /** One run. The planner call (`llm_fast.invoke` in `gerar_queries`) is
      outside any handler, so its failure ends the run; nothing after it
      can raise. */
  function Run(question: string, plan: string -> Result<string>, search: string -> Result<Response>,
               summarize: (string, string) -> Result<string>): (r: Result<SearchState>)
    ensures r.Err? <==> plan(question).Err?
    ensures r.Err? ==> r.error == plan(question).error
    ensures r.Ok? ==>
      var st := r.value;
      && st.question == question
      && st.queries == ParseQueries(plan(question).value)
      && |st.queries| <= MaxQueries
      && st.records == SearchAll(st.queries, search)
      && Summaries(st.records, summarize) == Ok(st.summaries)
      && (forall rec | rec in st.records :: rec.query in st.queries)
      && |st.summaries| <= |st.records|
      && (forall s | s in st.summaries :: |s| > 0 && Trimmed(s))
  {
    var plannerReply :- plan(question);
    var queries := ParseQueries(plannerReply);
    var records := Merge([], SearchAll(queries, search));
    assert records == SearchAll(queries, search);
    SearchAllShape(queries, search);
    SummariesOfSearch(queries, search, summarize);
    SummariesTrimmed(records, summarize);
    Ok(SearchState(question, queries, records, Summaries(records, summarize).value))
  }
}

=== FILE: ollama_pipeline.dfy ===
/** src/graph.py: the pipeline on local models. Each query is searched for
    a single hit, the page behind that hit is extracted, and its raw
    content is summarized; the writer lists every result in full in the
    prompt and appends a reference list. Nothing here catches an
    exception: any failure ends the run.

    `search(query)`, `extract(url)`, `summarize(query, raw_content)` and
    `synthesize(user_input, results)` are parameters standing for the
    search client and the two models; each yields its value or the
    exception raised.
 */
module OllamaPipeline {
  import opened Wrappers
  import opened Text
  import opened Records

  /** An extraction response: the `raw_content` of each extracted page, or
      None when the response has no 'results' key. */
  datatype Extraction = Extraction(results: Option<seq<Field>>)

  // ---------------------------------------------------------------------
  // One research task (src/graph.py:65-130)
  // ---------------------------------------------------------------------

  /** `single_search`: at most one result, built from the first hit and the
      first extracted page. */
  function SingleSearch(query: string, search: string -> Result<Response>,
                        extract: Field -> Result<Extraction>,
                        summarize: (string, string) -> Result<string>): (r: Result<seq<QueryResult>>)
    ensures search(query).Err? ==> r.Err?
    ensures search(query).Ok? && search(query).value.results.None? ==> r == Err(KeyError)
    ensures search(query) == Ok(Response(Some([]))) ==> r == Err(IndexError)
    ensures r.Ok? ==> |r.value| <= 1
    ensures r.Ok? ==>
      var hit := search(query).value.results.value[0];
      && !hit.url.Missing?
      && extract(hit.url).Ok?
      && extract(hit.url).value.results.Some?
      && (|extract(hit.url).value.results.value| == 0 <==> r.value == [])
    // a first hit with a URL whose extraction succeeds with no page gives
    // no update: the query contributes nothing and does not fail
    ensures (&& search(query).Ok? && search(query).value.results.Some?
             && |search(query).value.results.value| > 0
             && !search(query).value.results.value[0].url.Missing?
             && extract(search(query).value.results.value[0].url) == Ok(Extraction(Some([])))) ==>
      r == Ok([])
    ensures r.Ok? && |r.value| == 1 ==>
      var hit := search(query).value.results.value[0];
      var raw := extract(hit.url).value.results.value[0];
      && !raw.Missing? && !hit.title.Missing?
      && summarize(query, Show(raw)).Ok?
      && r.value[0] == QueryResult(Show(hit.title), Show(hit.url), summarize(query, Show(raw)).value)
  {
    var resp :- search(query);
    if resp.results.None? then Err(KeyError)
    else if |resp.results.value| == 0 then Err(IndexError)
    else
      var hit := resp.results.value[0];
      if hit.url.Missing? then Err(KeyError)
      else
        var page :- extract(hit.url);
        if page.results.None? then Err(KeyError)
        else if |page.results.value| == 0 then Ok([])
        else
          var raw := page.results.value[0];
          if raw.Missing? then Err(KeyError)
          else
            var resume :- summarize(query, Show(raw));
            if hit.title.Missing? then Err(KeyError)
            else Ok([QueryResult(Show(hit.title), Show(hit.url), resume)])
  }

  /** The whole path succeeds for `query`: a first hit with a URL and a
      title, a non-empty extraction whose first page has raw content, and a
      summary. */
  predicate Succeeds(query: string, search: string -> Result<Response>,
                     extract: Field -> Result<Extraction>,
                     summarize: (string, string) -> Result<string>)
  {
    && search(query).Ok?
    && search(query).value.results.Some?
    && |search(query).value.results.value| > 0
    && var hit := search(query).value.results.value[0];
    && !hit.url.Missing? && !hit.title.Missing?
    && extract(hit.url).Ok?
    && extract(hit.url).value.results.Some?
    && |extract(hit.url).value.results.value| > 0
    && !extract(hit.url).value.results.value[0].Missing?
    && summarize(query, Show(extract(hit.url).value.results.value[0])).Ok?
  }

  /** The update is exactly one result when the whole path succeeds. */
  lemma SingleSearchSucceeds(query: string, search: string -> Result<Response>,
                             extract: Field -> Result<Extraction>,
                             summarize: (string, string) -> Result<string>)
    requires Succeeds(query, search, extract, summarize)
    ensures SingleSearch(query, search, extract, summarize).Ok?
    ensures |SingleSearch(query, search, extract, summarize).value| == 1
    ensures SingleSearch(query, search, extract, summarize).value[0].url == Show(search(query).value.results.value[0].url)
  {
  }

  /** The parallel `single_search` runs, merged in query order; the first
      failure ends the run. */
  function Dispatch(queries: seq<string>, search: string -> Result<Response>,
                    extract: Field -> Result<Extraction>,
                    summarize: (string, string) -> Result<string>): (r: Result<seq<QueryResult>>)
    ensures r.Ok? <==> forall i :: 0 <= i < |queries| ==> SingleSearch(queries[i], search, extract, summarize).Ok?
    ensures r.Ok? ==> |r.value| <= |queries|
  {
    if |queries| == 0 then Ok([])
    else
      var init := queries[..|queries| - 1];
      assert forall i :: 0 <= i < |init| ==> init[i] == queries[i];
      var done :- Dispatch(init, search, extract, summarize);
      var update :- SingleSearch(queries[|queries| - 1], search, extract, summarize);
      Ok(Merge(done, update))
  }

  /** When every query's path succeeds there is one result per query, in
      query order, each carrying the first hit's URL. */
  lemma {:induction false} DispatchOnePerQuery(queries: seq<string>, search: string -> Result<Response>,
                                               extract: Field -> Result<Extraction>,
                                               summarize: (string, string) -> Result<string>)
    requires forall i :: 0 <= i < |queries| ==> Succeeds(queries[i], search, extract, summarize)
    ensures Dispatch(queries, search, extract, summarize).Ok?
    ensures |Dispatch(queries, search, extract, summarize).value| == |queries|
    ensures forall i :: 0 <= i < |queries| ==>
      Dispatch(queries, search, extract, summarize).value[i].url == Show(search(queries[i]).value.results.value[0].url)
  {
    if |queries| > 0 {
      var init, last := queries[..|queries| - 1], queries[|queries| - 1];
      forall i | 0 <= i < |init| ensures Succeeds(init[i], search, extract, summarize) {
        assert init[i] == queries[i];
      }
      DispatchOnePerQuery(init, search, extract, summarize);
      SingleSearchSucceeds(last, search, extract, summarize);
      DispatchStep(queries, search, extract, summarize);
      var done := Dispatch(init, search, extract, summarize).value;
      var update := SingleSearch(last, search, extract, summarize).value;
      var all := Dispatch(queries, search, extract, summarize).value;
      forall i | 0 <= i < |queries|
        ensures all[i].url == Show(search(queries[i]).value.results.value[0].url)
      {
        if i < |init| {
          assert all[i] == done[i] && queries[i] == init[i];
        } else {
          assert all[i] == update[0] && queries[i] == last;
        }
      }
    }
  }

  /** One step of the fan-in: the last query's update lands after the
      others'. */
  lemma DispatchStep(queries: seq<string>, search: string -> Result<Response>,
                     extract: Field -> Result<Extraction>,
                     summarize: (string, string) -> Result<string>)
    requires |queries| > 0
    requires Dispatch(queries[..|queries| - 1], search, extract, summarize).Ok?
    requires SingleSearch(queries[|queries| - 1], search, extract, summarize).Ok?
    ensures Dispatch(queries, search, extract, summarize)
         == Ok(Dispatch(queries[..|queries| - 1], search, extract, summarize).value
               + SingleSearch(queries[|queries| - 1], search, extract, summarize).value)
  {
  }

  // ---------------------------------------------------------------------
  // Synthesis (src/graph.py:132-175)
  // ---------------------------------------------------------------------

  /** The header `final_write` puts before the reference list. */
  const ReferencesHeader := "\n\n References: \n"

  /** The header of the customised writer in examples/config_example.py,
      which otherwise repeats `final_write`. */
  const CustomReferencesHeader := "\n\n## Referências:\n"

  const Separator := "===========\n\n"

  /** The `i`-th (0-based) entry of the evidence in the prompt: it starts
      with its number i+1 and carries the whole resume, uncut, followed
      only by the closing separator. */
  function PromptEntry(i: nat, r: QueryResult): (e: string)
    ensures LeadingNumber(e) == Some(i + 1)
    ensures |e| == |NatToString(i + 1)| + |r.title| + |r.url| + |r.resume| + 38
    ensures e[|e| - |r.resume| - 14..] == r.resume + "\n" + Separator
  {
    assert EntryBody(r)[0] == '\n';
    LeadingNumberOf(i + 1, EntryBody(r));
    assert |EntryHead(r)| == |r.title| + |r.url| + 24;
    var front := NatToString(i + 1) + EntryHead(r);
    assert NatToString(i + 1) + EntryBody(r) == front + (r.resume + EntryTail);
    NatToString(i + 1) + EntryBody(r)
  }

  /** What follows the number in a prompt entry. */
  function EntryBody(r: QueryResult): string
  {
    EntryHead(r) + r.resume + EntryTail
  }

  function EntryHead(r: QueryResult): string
  {
    "\n\n" + "Title: " + r.title + "\n" + "URL: " + r.url + "\n" + "Resume: "
  }

  const EntryTail := "\n" + Separator

  /** The `i`-th (0-based) line of the reference list, without its
      newline: it opens with citation i+1 and spans one line when the
      title and URL do. */
  function ReferenceLine(i: nat, r: QueryResult): (l: string)
    ensures LeadingCitation(l) == Some(i + 1)
    ensures '\n' !in l <==> '\n' !in r.title && '\n' !in r.url
  {
    var rest := " " + r.title + " - " + r.url;
    LeadingCitationOf(i + 1, rest);
    assert "[" + NatToString(i + 1) + "] " + r.title + " - " + r.url == "[" + NatToString(i + 1) + "]" + rest;
    "[" + NatToString(i + 1) + "] " + r.title + " - " + r.url
  }

  function PromptEntries(rs: seq<QueryResult>): seq<string>
  {
    seq(|rs|, i requires 0 <= i < |rs| => PromptEntry(i, rs[i]))
  }

  function ReferenceLines(rs: seq<QueryResult>): seq<string>
  {
    seq(|rs|, i requires 0 <= i < |rs| => ReferenceLine(i, rs[i]))
  }

  /** `final_write` (with `header` = `ReferencesHeader`) and the customised
      writer (with `header` = `CustomReferencesHeader`). */
  function FinalWrite(userInput: string, rs: seq<QueryResult>,
                      synthesize: (string, string) -> Result<string>, header: string): (r: Result<string>)
    ensures r.Ok? <==> synthesize(userInput, Concat(PromptEntries(rs))).Ok?
    ensures r.Ok? ==>
      var answer := synthesize(userInput, Concat(PromptEntries(rs))).value;
      && |r.value| >= |answer| + |header|
      && r.value[..|answer|] == answer
      && r.value[|answer|..|answer| + |header|] == header
    ensures r.Ok? && |rs| == 0 ==>
      r.value == synthesize(userInput, "").value + header
  {
    var answer :- synthesize(userInput, Concat(PromptEntries(rs)));
    var text := answer + header + JoinLines(ReferenceLines(rs));
    assert text[..|answer|] == answer;
    assert text[|answer|..|answer| + |header|] == header;
    Ok(text)
  }

  /** The i-th result is numbered i+1 both in the prompt and in the
      reference list. */
  lemma CitationsAgree(rs: seq<QueryResult>, i: nat)
    requires i < |rs|
    ensures LeadingNumber(PromptEntries(rs)[i]) == Some(i + 1)
    ensures LeadingCitation(ReferenceLines(rs)[i]) == Some(i + 1)
  {
  }

  /** Read back line by line, the part after the header holds exactly one
      `"[i+1] title - url"` line per result, in list order, when no title
      or URL spans lines. */
  lemma FinalWriteReferences(userInput: string, rs: seq<QueryResult>,
                             synthesize: (string, string) -> Result<string>, header: string)
    requires synthesize(userInput, Concat(PromptEntries(rs))).Ok?
    requires forall i :: 0 <= i < |rs| ==> '\n' !in rs[i].title && '\n' !in rs[i].url
    ensures FinalWrite(userInput, rs, synthesize, header).Ok?
    ensures
      var answer := synthesize(userInput, Concat(PromptEntries(rs))).value;
      var lines := Split(FinalWrite(userInput, rs, synthesize, header).value[|answer| + |header|..], '\n');
      && |lines| == |rs| + 1
      && lines[|rs|] == ""
      && forall i :: 0 <= i < |rs| ==>
           lines[i] == "[" + NatToString(i + 1) + "] " + rs[i].title + " - " + rs[i].url
  {
    var answer := synthesize(userInput, Concat(PromptEntries(rs))).value;
    var text := FinalWrite(userInput, rs, synthesize, header).value;
    assert text[|answer| + |header|..] == JoinLines(ReferenceLines(rs));
    ReferenceLinesReadBack(rs);
  }

  /** The reference lines, joined with a newline after each, split back
      into those lines plus the empty piece after the last newline. */
  lemma ReferenceLinesReadBack(rs: seq<QueryResult>)
    requires forall i :: 0 <= i < |rs| ==> '\n' !in rs[i].title && '\n' !in rs[i].url
    ensures var lines := Split(JoinLines(ReferenceLines(rs)), '\n');
      && |lines| == |rs| + 1
      && lines[|rs|] == ""
      && forall i :: 0 <= i < |rs| ==>
           lines[i] == "[" + NatToString(i + 1) + "] " + rs[i].title + " - " + rs[i].url
  {
    var ls := ReferenceLines(rs);
    forall l | l in ls ensures '\n' !in l {
      var i :| 0 <= i < |ls| && ls[i] == l;
      assert l == ReferenceLine(i, rs[i]);
    }
    SplitJoinLines(ls);
    forall i | 0 <= i < |rs|
      ensures ls[i] == "[" + NatToString(i + 1) + "] " + rs[i].title + " - " + rs[i].url
    {
      assert ls[i] == ReferenceLine(i, rs[i]);
    }
  }

  // ---------------------------------------------------------------------
  // The whole run (src/graph.py:33-63 and 183-207)
  // ---------------------------------------------------------------------

  /** One run: plan the queries, research each, write the answer. The
      planner's structured output is a parameter. The writer runs only
      after the researchers, so an empty plan ends the run with no
      `final_response` (None here). */
  function Research(userInput: string, plan: string -> Result<seq<string>>,
                    search: string -> Result<Response>, extract: Field -> Result<Extraction>,
                    summarize: (string, string) -> Result<string>,
                    synthesize: (string, string) -> Result<string>, header: string): (r: Result<Option<string>>)
    // the planner, any task and the synthesizer can make the run fail
    ensures r.Err? <==>
      || plan(userInput).Err?
      || (&& plan(userInput).value != []
          && (|| Dispatch(plan(userInput).value, search, extract, summarize).Err?
              || FinalWrite(userInput, Dispatch(plan(userInput).value, search, extract, summarize).value,
                            synthesize, header).Err?))
    ensures plan(userInput) == Ok([]) ==> r == Ok(None)
    ensures r.Ok? ==> (r.value.None? <==> plan(userInput).value == [])
    ensures r.Ok? && r.value.Some? ==>
      && Dispatch(plan(userInput).value, search, extract, summarize).Ok?
      && FinalWrite(userInput, Dispatch(plan(userInput).value, search, extract, summarize).value, synthesize, header)
           == Ok(r.value.value)
  {
    var queries :- plan(userInput);
    if |queries| == 0 then Ok(None)
    else
      var results :- Dispatch(queries, search, extract, summarize);
      var answer :- FinalWrite(userInput, results, synthesize, header);
      Ok(Some(answer))
  }

  /** The URL of the first search hit, or "" when there is none. */
  function FirstUrl(query: string, search: string -> Result<Response>): string
  {
    if && search(query).Ok? && search(query).value.results.Some?
       && |search(query).value.results.value| > 0
       && !search(query).value.results.value[0].url.Missing?
    then Show(search(query).value.results.value[0].url)
    else ""
  }

  /** FirstUrl of each query, in order. */
  function FirstUrls(queries: seq<string>, search: string -> Result<Response>): (urls: seq<string>)
    ensures |urls| == |queries|
    ensures forall i :: 0 <= i < |queries| ==> urls[i] == FirstUrl(queries[i], search)
  {
    seq(|queries|, i requires 0 <= i < |queries| => FirstUrl(queries[i], search))
  }

  /** Read back after the header, the writer's reference list has one
      line per result: line i is cited [i+1] and ends with result i's URL,
      named here `urls[i]`. */
  lemma WrittenReferences(userInput: string, rs: seq<QueryResult>, urls: seq<string>,
                          synthesize: (string, string) -> Result<string>, header: string)
    requires synthesize(userInput, Concat(PromptEntries(rs))).Ok?
    requires forall i :: 0 <= i < |rs| ==> '\n' !in rs[i].title && '\n' !in rs[i].url
    requires |urls| == |rs| && forall i :: 0 <= i < |rs| ==> rs[i].url == urls[i]
    ensures FinalWrite(userInput, rs, synthesize, header).Ok?
    ensures
      var answer := synthesize(userInput, Concat(PromptEntries(rs))).value;
      var lines := Split(FinalWrite(userInput, rs, synthesize, header).value[|answer| + |header|..], '\n');
      && |lines| == |rs| + 1
      && forall i :: 0 <= i < |rs| ==>
           && LeadingCitation(lines[i]) == Some(i + 1)
           && EndsWith(lines[i], urls[i])
  {
    FinalWriteReferences(userInput, rs, synthesize, header);
    var answer := synthesize(userInput, Concat(PromptEntries(rs))).value;
    var lines := Split(FinalWrite(userInput, rs, synthesize, header).value[|answer| + |header|..], '\n');
    forall i | 0 <= i < |rs|
      ensures LeadingCitation(lines[i]) == Some(i + 1)
      ensures EndsWith(lines[i], urls[i])
    {
      var front := "[" + NatToString(i + 1) + "] " + rs[i].title + " - ";
      assert lines[i] == ReferenceLine(i, rs[i]);
      assert lines[i] == front + urls[i];
    }
  }

  /** When every query's path succeeds and the synthesizer answers, the
      reference list read back after the header has one line per query, in
      query order: line i is cited [i+1] and ends with the URL of query
      i's first hit. */
  lemma DispatchedReferences(queries: seq<string>, search: string -> Result<Response>,
                             extract: Field -> Result<Extraction>,
                             summarize: (string, string) -> Result<string>, rs: seq<QueryResult>,
                             userInput: string, synthesize: (string, string) -> Result<string>,
                             header: string)
    requires forall i :: 0 <= i < |queries| ==> Succeeds(queries[i], search, extract, summarize)
    requires Dispatch(queries, search, extract, summarize) == Ok(rs)
    requires synthesize(userInput, Concat(PromptEntries(rs))).Ok?
    requires forall i :: 0 <= i < |rs| ==> '\n' !in rs[i].title && '\n' !in rs[i].url
    ensures FinalWrite(userInput, rs, synthesize, header).Ok?
    ensures
      var answer := synthesize(userInput, Concat(PromptEntries(rs))).value;
      var lines := Split(FinalWrite(userInput, rs, synthesize, header).value[|answer| + |header|..], '\n');
      && |lines| == |queries| + 1
      && forall i :: 0 <= i < |queries| ==>
           && LeadingCitation(lines[i]) == Some(i + 1)
           && EndsWith(lines[i], FirstUrl(queries[i], search))
  {
    DispatchedUrls(queries, search, extract, summarize, rs);
    QueryReferences(queries, search, rs, userInput, synthesize, header);
  }

  /** WrittenReferences for results that carry each query's first URL;
      kept apart from Dispatch, whose unfolding would swamp the string
      reasoning. */
  lemma QueryReferences(queries: seq<string>, search: string -> Result<Response>, rs: seq<QueryResult>,
                        userInput: string, synthesize: (string, string) -> Result<string>,
                        header: string)
    requires |rs| == |queries|
    requires forall i :: 0 <= i < |queries| ==> rs[i].url == FirstUrl(queries[i], search)
    requires synthesize(userInput, Concat(PromptEntries(rs))).Ok?
    requires forall i :: 0 <= i < |rs| ==> '\n' !in rs[i].title && '\n' !in rs[i].url
    ensures FinalWrite(userInput, rs, synthesize, header).Ok?
    ensures
      var answer := synthesize(userInput, Concat(PromptEntries(rs))).value;
      var lines := Split(FinalWrite(userInput, rs, synthesize, header).value[|answer| + |header|..], '\n');
      && |lines| == |queries| + 1
      && forall i :: 0 <= i < |queries| ==>
           && LeadingCitation(lines[i]) == Some(i + 1)
           && EndsWith(lines[i], FirstUrl(queries[i], search))
  {
    WrittenReferences(userInput, rs, FirstUrls(queries, search), synthesize, header);
  }

  /** DispatchOnePerQuery for a named result list, with the URLs read
      through FirstUrl. */
  lemma DispatchedUrls(queries: seq<string>, search: string -> Result<Response>,
                       extract: Field -> Result<Extraction>,
                       summarize: (string, string) -> Result<string>, rs: seq<QueryResult>)
    requires forall i :: 0 <= i < |queries| ==> Succeeds(queries[i], search, extract, summarize)
    requires Dispatch(queries, search, extract, summarize) == Ok(rs)
    ensures |rs| == |queries|
    ensures forall i :: 0 <= i < |queries| ==> rs[i].url == FirstUrl(queries[i], search)
  {
    DispatchOnePerQuery(queries, search, extract, summarize);
  }


  /** A run whose plan has queries, each of whose paths succeeds, and whose
      synthesizer answers, ends with an answer whose reference list has one
      line per query, in query order: line i is cited [i+1] and ends with
      the URL of query i's first hit. */
  lemma ResearchCitesEachQuery(userInput: string, plan: string -> Result<seq<string>>, queries: seq<string>,
                               search: string -> Result<Response>, extract: Field -> Result<Extraction>,
                               summarize: (string, string) -> Result<string>, rs: seq<QueryResult>,
                               synthesize: (string, string) -> Result<string>, header: string)
    requires plan(userInput) == Ok(queries) && |queries| > 0
    requires forall i :: 0 <= i < |queries| ==> Succeeds(queries[i], search, extract, summarize)
    requires Dispatch(queries, search, extract, summarize) == Ok(rs)
    requires synthesize(userInput, Concat(PromptEntries(rs))).Ok?
    requires forall i :: 0 <= i < |rs| ==> '\n' !in rs[i].title && '\n' !in rs[i].url
    ensures Research(userInput, plan, search, extract, summarize, synthesize, header).Ok?
    ensures Research(userInput, plan, search, extract, summarize, synthesize, header).value.Some?
    ensures
      var answer := synthesize(userInput, Concat(PromptEntries(rs))).value;
      var text := Research(userInput, plan, search, extract, summarize, synthesize, header).value.value;
      var lines := Split(text[|answer| + |header|..], '\n');
      && |lines| == |queries| + 1
      && forall i :: 0 <= i < |queries| ==>
           && LeadingCitation(lines[i]) == Some(i + 1)
           && EndsWith(lines[i], FirstUrl(queries[i], search))
  {
    DispatchedReferences(queries, search, extract, summarize, rs, userInput, synthesize, header);
  }
}

=== FILE: records.dfy ===
/** The records the pipelines pass around: search hits as the search client
    returns them (dicts whose keys may be absent or hold `None`), the
    per-query `QueryResult`, and the `operator.add` reducer LangGraph uses
    to merge the updates of parallel workers into one list.
 */
module Records {
  import opened Wrappers

  /** The value of one key of a Python dict: absent, `None`, or a string. */
  datatype Field = Missing | Null | Str(text: string)

  /** f-string rendering of a present value: `None` prints as "None". */
  function Show(f: Field): string
    requires !f.Missing?
  {
    if f.Str? then f.text else "None"
  }

  /** `d.get(key, default)`: an absent key yields the default, a present
      one (even `None`) yields its value. */
  function GetOr(f: Field, default: string): (g: Field)
    ensures f.Missing? ==> g == Str(default)
    ensures !f.Missing? ==> g == f
  {
    if f.Missing? then Str(default) else f
  }

  /** Python truthiness of a str-or-None value: a non-empty string. */
  predicate Truthy(f: Field) {
    f.Str? && |f.text| > 0
  }

  /** One search hit as returned by the search client. */
  datatype Hit = Hit(title: Field, url: Field, content: Field, rawContent: Field)

  /** A search response: the value under its `'results'` key, if any. */
  datatype Response = Response(results: Option<seq<Hit>>)

  /** One researched source: the unit every worker produces. */
  datatype QueryResult = QueryResult(title: string, url: string, resume: string)

  // ---------------------------------------------------------------------
  // The `operator.add` reducer
  // ---------------------------------------------------------------------

  /** `operator.add` on two lists: the state after one worker's update. */
  function Merge<T>(current: seq<T>, update: seq<T>): (merged: seq<T>)
    ensures |merged| == |current| + |update|
    ensures merged[..|current|] == current && merged[|current|..] == update
  {
    current + update
  }

  /** Total number of items in a list of updates. */
  function TotalLength<T>(updates: seq<seq<T>>): nat
  {
    if |updates| == 0 then 0 else TotalLength(updates[..|updates| - 1]) + |updates[|updates| - 1]|
  }

  /** The merged state after applying `updates` one after another to an
      empty list: as many items as the updates hold, each of them present
      (FanInBlocks places every update exactly). */
  function FanIn<T>(updates: seq<seq<T>>): (merged: seq<T>)
    ensures |merged| == TotalLength(updates)
    ensures forall i, x | 0 <= i < |updates| && x in updates[i] :: x in merged
  {
    if |updates| == 0 then []
    else
      var init := updates[..|updates| - 1];
      var merged := Merge(FanIn(init), updates[|updates| - 1]);
      assert forall i | 0 <= i < |init| :: updates[i] == init[i];
      merged
  }

  /** Merging is associative: two batches of updates merge to the merge of
      their separate results. */
  lemma {:induction false} FanInAppend<T>(a: seq<seq<T>>, b: seq<seq<T>>)
    ensures FanIn(a + b) == Merge(FanIn(a), FanIn(b))
    decreases |b|
  {
    if |b| == 0 {
      assert a + b == a;
    } else {
      var b', last := b[..|b| - 1], b[|b| - 1];
      assert (a + b)[..|a + b| - 1] == a + b';
      assert (a + b)[|a + b| - 1] == last;
      calc {
        FanIn(a + b);
        FanIn(a + b') + last;
        { FanInAppend(a, b'); }
        FanIn(a) + FanIn(b') + last;
        FanIn(a) + (FanIn(b') + last);
        FanIn(a) + FanIn(b);
      }
    }
  }

  /** Update `i` occupies exactly the block of the merged list that
      follows the items of the updates before it: with the length above,
      nothing is lost, duplicated or reordered. */
  lemma {:induction false} FanInBlocks<T>(updates: seq<seq<T>>, i: nat)
    requires i < |updates|
    ensures TotalLength(updates[..i]) + |updates[i]| <= |FanIn(updates)|
    ensures FanIn(updates)[TotalLength(updates[..i])..TotalLength(updates[..i]) + |updates[i]|] == updates[i]
    decreases |updates|
  {
    var n := |updates|;
    var init, last := updates[..n - 1], updates[n - 1];
    assert FanIn(updates) == FanIn(init) + last;
    if i == n - 1 {
      assert updates[..i] == init;
    } else {
      FanInBlocks(init, i);
      assert init[..i] == updates[..i];
      assert init[i] == updates[i];
    }
  }
}

=== FILE: sources.dfy ===
/** utils.py: turning one or many search responses into a single text block
    of sources, one block per distinct URL in order of first appearance,
    and the one-line-per-source bibliography of `format_sources`.
 */
module Sources {
  import opened Wrappers
  import opened Text
  import opened Records

  // ---------------------------------------------------------------------
  // Input normalisation (utils.py:45-55)
  // ---------------------------------------------------------------------

  /** One element of a list given as input. */
  datatype Element =
    | ResultsDict(results: seq<Hit>)  // a dict that has a 'results' key
    | PlainDict(keys: seq<string>)    // a dict without it: `extend` adds its keys
    | PlainList(items: seq<Hit>)      // a list of sources, spliced in as-is
    | Scalar                          // a value `extend` cannot iterate

  /** The accepted shapes of input: a dict, a list, or anything else. */
  datatype SearchInput = Single(response: Response) | Many(elements: seq<Element>) | Unsupported

  /** One item of the flattened list: a source dict, or a string that a
      plain dict contributed as a key. */
  datatype Entry = SourceEntry(hit: Hit) | KeyEntry(key: string)

  function AsEntries(hs: seq<Hit>): (es: seq<Entry>)
    ensures |es| == |hs|
    ensures forall i :: 0 <= i < |hs| ==> es[i] == SourceEntry(hs[i])
  {
    seq(|hs|, i requires 0 <= i < |hs| => SourceEntry(hs[i]))
  }

  /** What `sources_list.extend(...)` adds for one element of a list: a
      results dict its results, a plain list its items as they are, a
      plain dict its keys in order; anything else raises TypeError. */
  function ElementEntries(e: Element): (r: Result<seq<Entry>>)
    ensures r.Ok? <==> !e.Scalar?
    ensures e.Scalar? ==> r == Err(TypeError)
    ensures e.ResultsDict? ==> r == Ok(AsEntries(e.results))
    ensures e.PlainList? ==> r == Ok(AsEntries(e.items))
    ensures e.PlainDict? ==>
      && r.Ok? && |r.value| == |e.keys|
      && forall i :: 0 <= i < |e.keys| ==> r.value[i] == KeyEntry(e.keys[i])
  {
    match e
    case ResultsDict(rs) => Ok(AsEntries(rs))
    case PlainDict(ks) => Ok(seq(|ks|, i requires 0 <= i < |ks| => KeyEntry(ks[i])))
    case PlainList(items) => Ok(AsEntries(items))
    case Scalar => Err(TypeError)
  }

  /** The loop over a list input: each element's entries, in order. */
  function FlattenElements(els: seq<Element>): (r: Result<seq<Entry>>)
    ensures r.Ok? <==> forall i :: 0 <= i < |els| ==> !els[i].Scalar?
    ensures r.Err? ==> r.error == TypeError
  {
    if |els| == 0 then Ok([])
    else
      var head :- ElementEntries(els[0]);
      var tail :- FlattenElements(els[1..]);
      assert forall i :: 1 <= i < |els| ==> els[i] == els[1..][i - 1];
      Ok(head + tail)
  }

  /** The list of sources the function works on, or the error raised
      while building it: a dict's results, or a list's flattened
      elements. */
  function Normalize(input: SearchInput): (r: Result<seq<Entry>>)
    ensures r == Err(ValueError) <==> input.Unsupported?
    ensures input.Single? && input.response.results.Some? ==>
      r == Ok(AsEntries(input.response.results.value))
    ensures input.Single? && input.response.results.None? ==> r == Err(KeyError)
  {
    match input
    case Single(resp) =>
      if resp.results.Some? then Ok(AsEntries(resp.results.value)) else Err(KeyError)
    case Many(els) => FlattenElements(els)
    case Unsupported => Err(ValueError)
  }

  /** A one-element list flattens to that element's entries. */
  lemma FlattenSingle(e: Element)
    ensures FlattenElements([e]) == ElementEntries(e)
  {
    assert [e][1..] == [];
    if !e.Scalar? {
      assert ElementEntries(e).value + [] == ElementEntries(e).value;
    }
  }

  /** A dict input flattens exactly as a one-element list holding it. */
  lemma NormalizeSingleAsList(rs: seq<Hit>)
    ensures Normalize(Single(Response(Some(rs)))) == Normalize(Many([ResultsDict(rs)]))
  {
    var els := [ResultsDict(rs)];
    assert ElementEntries(els[0]) == Ok(AsEntries(rs));
    assert els[1..] == [];
    assert FlattenElements(els[1..]) == Ok([]);
    assert AsEntries(rs) + [] == AsEntries(rs);
  }

  /** A list input is flattened piecewise and in order: the entries of
      `a + b` are those of `a` followed by those of `b`. */
  lemma {:induction false} FlattenAppend(a: seq<Element>, b: seq<Element>)
    requires FlattenElements(a).Ok? && FlattenElements(b).Ok?
    ensures FlattenElements(a + b) == Ok(FlattenElements(a).value + FlattenElements(b).value)
  {
    if |a| == 0 {
      assert a + b == b;
      assert FlattenElements(a).value == [];
      assert [] + FlattenElements(b).value == FlattenElements(b).value;
    } else {
      assert (a + b)[0] == a[0];
      assert (a + b)[1..] == a[1..] + b;
      assert forall i :: 1 <= i < |a| ==> a[i] == a[1..][i - 1];
      var head := ElementEntries(a[0]).value;
      assert FlattenElements(a[1..]).Ok?;
      assert FlattenElements(a).value == head + FlattenElements(a[1..]).value;
      FlattenAppend(a[1..], b);
      assert FlattenElements((a + b)[1..]) == Ok(FlattenElements(a[1..]).value + FlattenElements(b).value);
      assert ElementEntries((a + b)[0]) == Ok(head);
      assert FlattenElements(a + b) == Ok(head + FlattenElements((a + b)[1..]).value);
      var x, y := FlattenElements(a[1..]).value, FlattenElements(b).value;
      assert head + (x + y) == (head + x) + y;
    }
  }

  // ---------------------------------------------------------------------
  // Reading each source's URL (utils.py:59-60)
  // ---------------------------------------------------------------------

  /** The sources behind the entries, provided every entry is a dict with a
      'url' key; otherwise the exception `source['url']` raises first. */
  function SourcesOf(es: seq<Entry>): (r: Result<seq<Hit>>)
    ensures r.Ok? <==> forall i :: 0 <= i < |es| ==> es[i].SourceEntry? && !es[i].hit.url.Missing?
    ensures r.Ok? ==> |r.value| == |es| && forall i :: 0 <= i < |es| ==> es[i] == SourceEntry(r.value[i])
    ensures r.Err? ==> r.error == TypeError || r.error == KeyError
  {
    if |es| == 0 then Ok([])
    else if es[0].KeyEntry? then Err(TypeError)
    else if es[0].hit.url.Missing? then Err(KeyError)
    else
      var rest :- SourcesOf(es[1..]);
      assert forall i :: 1 <= i < |es| ==> es[i] == es[1..][i - 1];
      Ok([es[0].hit] + rest)
  }

  // ---------------------------------------------------------------------
  // Deduplication by URL (utils.py:57-61)
  // ---------------------------------------------------------------------

  /** The URLs of `hs`, in order. */
  function Urls(hs: seq<Hit>): (us: seq<Field>)
    ensures |us| == |hs|
    ensures forall i :: 0 <= i < |hs| ==> us[i] == hs[i].url
  {
    seq(|hs|, i requires 0 <= i < |hs| => hs[i].url)
  }

  /** The distinct URLs of `hs`. */
  function UrlSet(hs: seq<Hit>): set<Field>
  {
    set u | u in Urls(hs)
  }

  /** Position of the first source of `hs` whose URL is `u`, or |hs| when
      no source has it. */
  function FirstIndex(hs: seq<Hit>, u: Field): (k: nat)
    ensures k <= |hs|
    ensures k < |hs| ==> hs[k].url == u
    ensures forall j :: 0 <= j < k ==> hs[j].url != u
  {
    if |hs| == 0 then 0
    else if hs[0].url == u then 0
    else 1 + FirstIndex(hs[1..], u)
  }

  /** The loop filling the `unique_sources` dict: a source is stored under
      its URL unless that URL is already a key (`seen`). The dict keeps
      insertion order, so its values are returned in that order. */
  function KeepFirst(hs: seq<Hit>, seen: set<Field>): (kept: seq<Hit>)
    ensures |kept| <= |hs|
  {
    if |hs| == 0 then []
    else if hs[0].url in seen then
      KeepFirst(hs[1..], seen)
    else
      [hs[0]] + KeepFirst(hs[1..], seen + {hs[0].url})
  }

  /** One step of the loop, with the kept prefix split off. */
  lemma KeepFirstStep(hs: seq<Hit>, seen: set<Field>)
    requires |hs| > 0
    ensures hs[0].url in seen ==> KeepFirst(hs, seen) == KeepFirst(hs[1..], seen)
    ensures hs[0].url !in seen ==> KeepFirst(hs, seen) == [hs[0]] + KeepFirst(hs[1..], seen + {hs[0].url})
  {
  }

  /** Kept sources come from the input and carry URLs not seen before. */
  lemma {:induction false} KeepFirstFromInput(hs: seq<Hit>, seen: set<Field>)
    ensures forall i :: 0 <= i < |KeepFirst(hs, seen)| ==>
      KeepFirst(hs, seen)[i] in hs && KeepFirst(hs, seen)[i].url !in seen
  {
    if |hs| > 0 {
      var t := hs[1..];
      assert forall h | h in t :: h in hs;
      if hs[0].url in seen {
        KeepFirstFromInput(t, seen);
        assert KeepFirst(hs, seen) == KeepFirst(t, seen);
      } else {
        var seen' := seen + {hs[0].url};
        var rest := KeepFirst(t, seen');
        KeepFirstFromInput(t, seen');
        var kept := [hs[0]] + rest;
        assert KeepFirst(hs, seen) == kept;
        forall i | 0 <= i < |kept| ensures kept[i] in hs && kept[i].url !in seen {
          if i > 0 {
            assert kept[i] == rest[i - 1];
          }
        }
      }
    }
  }

  /** Kept sources carry pairwise distinct URLs. */
  lemma {:induction false} KeepFirstDistinct(hs: seq<Hit>, seen: set<Field>)
    ensures forall i, j :: 0 <= i < j < |KeepFirst(hs, seen)| ==>
      KeepFirst(hs, seen)[i].url != KeepFirst(hs, seen)[j].url
  {
    if |hs| > 0 {
      var t := hs[1..];
      if hs[0].url in seen {
        KeepFirstDistinct(t, seen);
        assert KeepFirst(hs, seen) == KeepFirst(t, seen);
      } else {
        var seen' := seen + {hs[0].url};
        var rest := KeepFirst(t, seen');
        KeepFirstDistinct(t, seen');
        KeepFirstFromInput(t, seen');
        assert KeepFirst(hs, seen) == [hs[0]] + rest;
        DistinctCons(hs[0], rest);
      }
    }
  }

  /** Prepending a source whose URL is new keeps URLs pairwise distinct. */
  lemma DistinctCons(h: Hit, rest: seq<Hit>)
    requires forall k :: 0 <= k < |rest| ==> rest[k].url != h.url
    requires forall i, j :: 0 <= i < j < |rest| ==> rest[i].url != rest[j].url
    ensures forall i, j :: 0 <= i < j < |[h] + rest| ==> ([h] + rest)[i].url != ([h] + rest)[j].url
  {
    var kept := [h] + rest;
    forall i, j | 0 <= i < j < |kept| ensures kept[i].url != kept[j].url {
      assert kept[j] == rest[j - 1];
      if i > 0 {
        assert kept[i] == rest[i - 1];
      }
    }
  }

  /** A URL is kept exactly when it occurs and was not seen before. */
  lemma {:induction false} KeepFirstCovers(hs: seq<Hit>, seen: set<Field>)
    ensures forall u :: u in Urls(KeepFirst(hs, seen)) <==> u in Urls(hs) && u !in seen
  {
    if |hs| > 0 {
      var t := hs[1..];
      var seen' := if hs[0].url in seen then seen else seen + {hs[0].url};
      var rest := KeepFirst(t, seen');
      KeepFirstCovers(t, seen');
      KeepFirstStep(hs, seen);
      assert Urls(hs) == [hs[0].url] + Urls(t);
      if hs[0].url !in seen {
        assert Urls(KeepFirst(hs, seen)) == [hs[0].url] + Urls(rest);
      }
    }
  }

  /** The values of `unique_sources`: sources of the input with pairwise
      distinct URLs. */
  function UniqueByUrl(hs: seq<Hit>): (kept: seq<Hit>)
    ensures forall i :: 0 <= i < |kept| ==> kept[i] in hs
    ensures forall i, j :: 0 <= i < j < |kept| ==> kept[i].url != kept[j].url
  {
    KeepFirstFromInput(hs, {});
    KeepFirstDistinct(hs, {});
    KeepFirst(hs, {})
  }

  /** Each kept source is the FIRST source carrying its URL. */
  lemma {:induction false} KeepFirstIsFirstOccurrence(hs: seq<Hit>, seen: set<Field>)
    ensures forall i :: 0 <= i < |KeepFirst(hs, seen)| ==>
      FirstIndex(hs, KeepFirst(hs, seen)[i].url) < |hs|
      && KeepFirst(hs, seen)[i] == hs[FirstIndex(hs, KeepFirst(hs, seen)[i].url)]
  {
    if |hs| > 0 {
      var t := hs[1..];
      if hs[0].url in seen {
        var kept := KeepFirst(t, seen);
        assert KeepFirst(hs, seen) == kept;
        KeepFirstIsFirstOccurrence(t, seen);
        KeepFirstFromInput(t, seen);
        forall i | 0 <= i < |kept|
          ensures FirstIndex(hs, kept[i].url) < |hs| && kept[i] == hs[FirstIndex(hs, kept[i].url)]
        {
          assert FirstIndex(hs, kept[i].url) == 1 + FirstIndex(t, kept[i].url);
        }
      } else {
        var seen' := seen + {hs[0].url};
        var rest := KeepFirst(t, seen');
        var kept := [hs[0]] + rest;
        assert KeepFirst(hs, seen) == kept;
        KeepFirstIsFirstOccurrence(t, seen');
        KeepFirstFromInput(t, seen');
        forall i | 0 <= i < |kept|
          ensures FirstIndex(hs, kept[i].url) < |hs| && kept[i] == hs[FirstIndex(hs, kept[i].url)]
        {
          if i > 0 {
            assert kept[i] == rest[i - 1];
            assert FirstIndex(hs, kept[i].url) == 1 + FirstIndex(t, kept[i].url);
          }
        }
      }
    }
  }

  /** Two kept sources appear in the order of the first occurrences of
      their URLs. */
  lemma {:induction false} KeptPairInOrder(hs: seq<Hit>, seen: set<Field>, i: nat, j: nat)
    requires i < j < |KeepFirst(hs, seen)|
    ensures FirstIndex(hs, KeepFirst(hs, seen)[i].url) < FirstIndex(hs, KeepFirst(hs, seen)[j].url)
  {
    var t := hs[1..];
    if hs[0].url in seen {
      var kept := KeepFirst(t, seen);
      assert KeepFirst(hs, seen) == kept;
      KeepFirstUnseen(t, seen, i);
      KeepFirstUnseen(t, seen, j);
      KeptPairInOrder(t, seen, i, j);
      FirstIndexTail(hs, kept[i].url);
      FirstIndexTail(hs, kept[j].url);
    } else {
      var seen' := seen + {hs[0].url};
      var rest := KeepFirst(t, seen');
      var kept := [hs[0]] + rest;
      assert KeepFirst(hs, seen) == kept;
      assert kept[j] == rest[j - 1];
      KeepFirstUnseen(t, seen', j - 1);
      FirstIndexTail(hs, rest[j - 1].url);
      if i > 0 {
        assert kept[i] == rest[i - 1];
        KeepFirstUnseen(t, seen', i - 1);
        FirstIndexTail(hs, rest[i - 1].url);
        KeptPairInOrder(t, seen', i - 1, j - 1);
      }
    }
  }

  /** One kept source carries a URL not seen before. */
  lemma KeepFirstUnseen(hs: seq<Hit>, seen: set<Field>, k: nat)
    requires k < |KeepFirst(hs, seen)|
    ensures KeepFirst(hs, seen)[k].url !in seen
  {
    KeepFirstFromInput(hs, seen);
  }

  /** Past a head with another URL, the first position moves by one. */
  lemma FirstIndexTail(hs: seq<Hit>, u: Field)
    requires |hs| > 0 && hs[0].url != u
    ensures FirstIndex(hs, u) == 1 + FirstIndex(hs[1..], u)
  {
  }

  /** The kept sources are in order of first appearance of their URLs. */
  lemma KeepFirstInOrder(hs: seq<Hit>, seen: set<Field>)
    ensures forall i, j :: 0 <= i < j < |KeepFirst(hs, seen)| ==>
      FirstIndex(hs, KeepFirst(hs, seen)[i].url) < FirstIndex(hs, KeepFirst(hs, seen)[j].url)
  {
    forall i, j | 0 <= i < j < |KeepFirst(hs, seen)|
      ensures FirstIndex(hs, KeepFirst(hs, seen)[i].url) < FirstIndex(hs, KeepFirst(hs, seen)[j].url)
    {
      KeptPairInOrder(hs, seen, i, j);
    }
  }

  /** Number of distinct elements of a sequence without repetitions. */
  lemma {:induction false} DistinctCard(us: seq<Field>)
    requires forall i, j :: 0 <= i < j < |us| ==> us[i] != us[j]
    ensures |set u | u in us| == |us|
  {
    if |us| > 0 {
      var t := us[1..];
      DistinctCard(t);
      assert (set u | u in us) == {us[0]} + (set u | u in t);
      assert us[0] !in t;
    }
  }

  /** Exactly one source is kept per distinct URL. */
  lemma UniqueByUrlCount(hs: seq<Hit>)
    ensures |UniqueByUrl(hs)| == |UrlSet(hs)|
  {
    var kept := UniqueByUrl(hs);
    var ku := Urls(kept);
    DistinctCard(ku);
    KeepFirstCovers(hs, {});
    assert (set u | u in ku) == UrlSet(hs);
  }

  /** A later source whose URL was already seen is ignored, whatever its
      other fields hold. */
  lemma {:induction false} KeepFirstIgnoresDuplicate(hs: seq<Hit>, seen: set<Field>, h: Hit)
    requires h.url in seen || h.url in Urls(hs)
    ensures KeepFirst(hs + [h], seen) == KeepFirst(hs, seen)
  {
    if |hs| == 0 {
      assert KeepFirst([h], seen) == KeepFirst([], seen);
    } else {
      assert (hs + [h])[0] == hs[0];
      assert (hs + [h])[1..] == hs[1..] + [h];
      assert Urls(hs) == [hs[0].url] + Urls(hs[1..]);
      var seen' := if hs[0].url in seen then seen else seen + {hs[0].url};
      KeepFirstIgnoresDuplicate(hs[1..], seen', h);
    }
  }

  lemma UniqueByUrlIgnoresDuplicate(hs: seq<Hit>, h: Hit)
    requires h.url in Urls(hs)
    ensures UniqueByUrl(hs + [h]) == UniqueByUrl(hs)
  {
    KeepFirstIgnoresDuplicate(hs, {}, h);
  }

  // ---------------------------------------------------------------------
  // Formatting (utils.py:63-87)
  // ---------------------------------------------------------------------

  const Header := "Sources:\n\n"
  const TruncatedMarker := "... [truncated]"

  /** `source.get('raw_content', '')` with `None` replaced by ''. */
  function RawText(f: Field): (raw: string)
    ensures !f.Str? ==> raw == ""
  {
    if f.Str? then f.text else ""
  }

  /** Raw content cut to `4 * max_tokens` characters, Python slicing
      included (a negative limit counts from the end). */
  function LimitRaw(raw: string, maxTokens: int): (r: string)
    ensures maxTokens >= 0 ==> r == Truncate(raw, 4 * maxTokens, TruncatedMarker)
    ensures maxTokens < 0 ==>
      var kept := if |raw| + 4 * maxTokens >= 0 then |raw| + 4 * maxTokens else 0;
      r == raw[..kept] + TruncatedMarker
  {
    var limit := maxTokens * 4;
    if |raw| > limit then PyPrefix(raw, limit) + TruncatedMarker else raw
  }

  /** Within the limit the raw content is kept; beyond it, exactly the
      first `4 * max_tokens` characters are kept and the marker appended. */
  lemma LimitRawBounds(raw: string, maxTokens: nat)
    ensures |raw| <= 4 * maxTokens ==> LimitRaw(raw, maxTokens) == raw
    ensures |raw| > 4 * maxTokens ==>
      LimitRaw(raw, maxTokens) == raw[..4 * maxTokens] + TruncatedMarker
    ensures LimitRaw(raw, maxTokens) == Truncate(raw, 4 * maxTokens, TruncatedMarker)
  {
  }

  /** One "Source ...:" block (lines 66-68), plus the full-content line
      when raw content is requested (lines 71-85). */
  function SourceBlock(h: Hit, maxTokens: int, includeRaw: bool): (r: Result<string>)
    requires !h.url.Missing?
    ensures r.Ok? <==> !h.title.Missing? && !h.content.Missing?
    ensures r.Err? ==> r.error == KeyError
  {
    if h.title.Missing? || h.content.Missing? then Err(KeyError)
    else
      var base := JoinLines(BlockHead(h));
      if includeRaw then Ok(base + FullContent(h, maxTokens)) else Ok(base)
  }

  /** The six newline-terminated lines of lines 66-68. */
  function BlockHead(h: Hit): (lines: seq<string>)
    requires !h.url.Missing? && !h.title.Missing? && !h.content.Missing?
    ensures |lines| == 6
    ensures '\n' !in Show(h.title) && '\n' !in Show(h.url) && '\n' !in Show(h.content) ==>
      forall i :: 0 <= i < |lines| ==> '\n' !in lines[i]
  {
    ["Source " + Show(h.title) + ":", "===",
     "URL: " + Show(h.url), "===",
     "Most relevant content from source: " + Show(h.content), "==="]
  }

  const FullContentLead := "Full source content limited to "

  lemma FullContentLeadOneLine()
    ensures '\n' !in FullContentLead
  {
    assert forall i :: 0 <= i < |FullContentLead| ==> FullContentLead[i] != '\n';
  }

  /** The full-content paragraph (line 85) with the cut raw content. */
  function FullContent(h: Hit, maxTokens: int): string
  {
    FullContentLead + (IntToString(maxTokens) + " tokens: " + LimitRaw(RawText(h.rawContent), maxTokens) + "\n\n")
  }

  /** Read back line by line, a block without raw content whose title,
      URL and content are single lines is exactly the six lines of lines
      66-68 (the title line, the URL line and the content line, each
      followed by "===") and the empty piece after the last newline; in
      particular no line is a "Full source content" line. */
  lemma SourceBlockLines(h: Hit, maxTokens: int)
    requires !h.url.Missing? && !h.title.Missing? && !h.content.Missing?
    requires '\n' !in Show(h.title) && '\n' !in Show(h.url) && '\n' !in Show(h.content)
    ensures SourceBlock(h, maxTokens, false).Ok?
    ensures Split(SourceBlock(h, maxTokens, false).value, '\n')
      == ["Source " + Show(h.title) + ":", "===",
          "URL: " + Show(h.url), "===",
          "Most relevant content from source: " + Show(h.content), "===", ""]
    ensures
      var lines := Split(SourceBlock(h, maxTokens, false).value, '\n');
      forall k :: 0 <= k < |lines| ==> !StartsWith(lines[k], "Full source content")
  {
    var head := BlockHead(h);
    SplitJoinLines(head);
    var lines := Split(SourceBlock(h, maxTokens, false).value, '\n');
    assert lines == head + [""];
    forall k | 0 <= k < |lines| ensures !StartsWith(lines[k], "Full source content") {
      assert lines[k] == "" || lines[k][0] != 'F';
      FirstCharDiffers(lines[k], "Full source content");
    }
  }

  /** With raw content, the same six lines come first and the
      full-content paragraph of line 85 follows them. */
  lemma SourceBlockRawLines(h: Hit, maxTokens: int)
    requires !h.url.Missing? && !h.title.Missing? && !h.content.Missing?
    requires '\n' !in Show(h.title) && '\n' !in Show(h.url) && '\n' !in Show(h.content)
    ensures SourceBlock(h, maxTokens, true).Ok?
    ensures
      var lines := Split(SourceBlock(h, maxTokens, true).value, '\n');
      && |lines| >= 7
      && lines[..6] == ["Source " + Show(h.title) + ":", "===",
                        "URL: " + Show(h.url), "===",
                        "Most relevant content from source: " + Show(h.content), "==="]
      && lines[6..] == Split(FullContent(h, maxTokens), '\n')
      && StartsWith(lines[6], FullContentLead)
  {
    var head := BlockHead(h);
    var rest := FullContent(h, maxTokens);
    SplitAfterLines(head, rest);
    var lines := Split(SourceBlock(h, maxTokens, true).value, '\n');
    assert lines == head + Split(rest, '\n');
    FullContentLeadOneLine();
    SplitFirstStartsWith(FullContentLead, rest[|FullContentLead|..]);
    assert FullContentLead + rest[|FullContentLead|..] == rest;
  }

  /** Raw content only ever adds one line after the block: without it the
      block does not depend on the token limit, and with it the block is
      the same text followed by the full-content line. */
  lemma IncludeRawOnlyAppends(h: Hit, maxTokens: int, other: int)
    requires !h.url.Missing?
    ensures SourceBlock(h, maxTokens, false) == SourceBlock(h, other, false)
    ensures SourceBlock(h, maxTokens, true).Ok? == SourceBlock(h, maxTokens, false).Ok?
    ensures SourceBlock(h, maxTokens, true).Ok? ==>
      SourceBlock(h, maxTokens, true).value == SourceBlock(h, maxTokens, false).value + FullContent(h, maxTokens)
  {
  }

  /** The formatting loop: one block per kept source, in order. */
  function RenderBlocks(kept: seq<Hit>, maxTokens: int, includeRaw: bool): (r: Result<seq<string>>)
    requires forall i :: 0 <= i < |kept| ==> !kept[i].url.Missing?
    ensures r.Ok? <==> forall i :: 0 <= i < |kept| ==> !kept[i].title.Missing? && !kept[i].content.Missing?
    ensures r.Err? ==> r.error == KeyError
    ensures r.Ok? ==> |r.value| == |kept|
    ensures r.Ok? ==> forall i :: 0 <= i < |kept| ==> SourceBlock(kept[i], maxTokens, includeRaw) == Ok(r.value[i])
  {
    if |kept| == 0 then Ok([])
    else
      var b :- SourceBlock(kept[0], maxTokens, includeRaw);
      var rest :- RenderBlocks(kept[1..], maxTokens, includeRaw);
      assert forall i :: 1 <= i < |kept| ==> kept[i] == kept[1..][i - 1];
      Ok([b] + rest)
  }

  /** Stripping never removes the leading "Sources:". */
  lemma StrippedKeepsTitle(body: string)
    ensures var r := Strip(Header + body); |r| >= 8 && r[..8] == "Sources:"
  {
    var text := Header + body;
    assert text[..8] == "Sources:";
    StripKeepsPrefix(text, "Sources:");
  }

  /** `deduplicate_and_format_sources`: the formatted, stripped text. */
  function DeduplicateAndFormatSources(input: SearchInput, maxTokens: int, includeRaw: bool): (r: Result<string>)
    ensures input.Unsupported? <==> r == Err(ValueError)
    ensures r.Ok? ==> |r.value| >= 8 && r.value[..8] == "Sources:"
    ensures r.Ok? ==> Trimmed(r.value)
  {
    var entries :- Normalize(input);
    var hs :- SourcesOf(entries);
    var blocks :- RenderBlocks(UniqueByUrl(hs), maxTokens, includeRaw);
    var text := Header + Concat(blocks);
    StrippedKeepsTitle(Concat(blocks));
    Ok(Strip(text))
  }

  /** Every source has a title and a content. */
  predicate WellFormed(hs: seq<Hit>) {
    forall i :: 0 <= i < |hs| ==> !hs[i].title.Missing? && !hs[i].content.Missing?
  }

  /** When every source is well formed, the text is the header followed by
      exactly one block per distinct URL (the block of the first source
      carrying it, see `KeepFirstIsFirstOccurrence`), stripped. */
  lemma DeduplicateAndFormatBlocks(input: SearchInput, maxTokens: int, includeRaw: bool)
    requires Normalize(input).Ok?
    requires SourcesOf(Normalize(input).value).Ok?
    requires WellFormed(SourcesOf(Normalize(input).value).value)
    ensures var hs := SourcesOf(Normalize(input).value).value;
      var blocks := RenderBlocks(UniqueByUrl(hs), maxTokens, includeRaw);
      && blocks.Ok?
      && |blocks.value| == |UrlSet(hs)|
      && DeduplicateAndFormatSources(input, maxTokens, includeRaw) == Ok(Strip(Header + Concat(blocks.value)))
  {
    var hs := SourcesOf(Normalize(input).value).value;
    var kept := UniqueByUrl(hs);
    KeepFirstIsFirstOccurrence(hs, {});
    forall i | 0 <= i < |kept| ensures !kept[i].title.Missing? && !kept[i].content.Missing? {
      assert kept[i] == hs[FirstIndex(hs, kept[i].url)];
    }
    UniqueByUrlCount(hs);
  }

  // ---------------------------------------------------------------------
  // format_sources (utils.py:89-111)
  // ---------------------------------------------------------------------

  /** One `"* title : url"` line; an absent title or URL raises
      KeyError. */
  function SourceLine(h: Hit): (r: Result<string>)
    ensures r.Ok? <==> !h.title.Missing? && !h.url.Missing?
    ensures r.Err? ==> r.error == KeyError
    ensures r.Ok? ==>
      && |r.value| >= 2 && r.value[..2] == "* "
      && ('\n' !in r.value <==> '\n' !in Show(h.title) + Show(h.url))
  {
    if h.title.Missing? || h.url.Missing? then Err(KeyError)
    else Ok("* " + Show(h.title) + " : " + Show(h.url))
  }

  function SourceLines(hs: seq<Hit>): (r: Result<seq<string>>)
    ensures r.Ok? <==> forall i :: 0 <= i < |hs| ==> SourceLine(hs[i]).Ok?
    ensures r.Ok? ==> |r.value| == |hs| && forall i :: 0 <= i < |hs| ==> SourceLine(hs[i]) == Ok(r.value[i])
    ensures r.Err? ==> r.error == KeyError
  {
    if |hs| == 0 then Ok([])
    else
      var l :- SourceLine(hs[0]);
      var rest :- SourceLines(hs[1..]);
      assert forall i :: 1 <= i < |hs| ==> hs[i] == hs[1..][i - 1];
      Ok([l] + rest)
  }

  /** `format_sources`: the lines joined by newlines, no trailing one. */
  function FormatSourceList(resp: Response): (r: Result<string>)
    ensures resp.results.None? ==> r == Err(KeyError)
    ensures resp.results == Some([]) ==> r == Ok("")
    // a result without a title or a URL raises KeyError (line 109)
    ensures resp.results.Some? ==>
      (r.Ok? <==> forall i :: 0 <= i < |resp.results.value| ==>
                    !resp.results.value[i].title.Missing? && !resp.results.value[i].url.Missing?)
    ensures r.Err? ==> r.error == KeyError
  {
    if resp.results.None? then Err(KeyError)
    else
      var lines :- SourceLines(resp.results.value);
      Ok(Join(lines, '\n'))
  }

  /** Read back line by line, the list has exactly one `"* title : url"`
      line per result, in order, when no title or URL spans lines. */
  lemma FormatSourceListLines(hs: seq<Hit>)
    requires |hs| > 0
    requires forall i :: 0 <= i < |hs| ==> hs[i].title.Str? && hs[i].url.Str?
    requires forall i :: 0 <= i < |hs| ==> '\n' !in hs[i].title.text && '\n' !in hs[i].url.text
    ensures FormatSourceList(Response(Some(hs))).Ok?
    ensures var lines := Split(FormatSourceList(Response(Some(hs))).value, '\n');
      && |lines| == |hs|
      && forall i :: 0 <= i < |hs| ==> lines[i] == "* " + hs[i].title.text + " : " + hs[i].url.text
  {
    var lines := SourceLines(hs).value;
    forall l | l in lines ensures '\n' !in l {
      var i :| 0 <= i < |lines| && lines[i] == l;
      assert l == "* " + hs[i].title.text + " : " + hs[i].url.text;
    }
    SplitJoin(lines, '\n');
  }
}

=== FILE: text.dfy ===
/** String primitives of Python that the pipelines rely on: `str.strip()`,
    `str.split(sep)`, `sep.join(...)`, `str(int)`, slicing `s[:k]`, and the
    "cut and append a marker" truncation used at three places. Each one is
    paired with an inverse or a characterization proved for all inputs.
 */
module Text {
  import opened Wrappers

  // ---------------------------------------------------------------------
  // Whitespace and Python's str.strip()
  // ---------------------------------------------------------------------

  /** The characters for which Python's `str.isspace()` holds; these are
      exactly the characters `str.strip()` with no argument removes. */
  predicate IsSpace(c: char) {
    || c == ' ' || c == '\t' || c == '\n' || c == '\r'
    || c == '\U{0B}' || c == '\U{0C}'
    || ('\U{1C}' <= c <= '\U{1F}')
    || c == '\U{85}' || c == '\U{A0}' || c == '\U{1680}'
    || ('\U{2000}' <= c <= '\U{200A}')
    || c == '\U{2028}' || c == '\U{2029}' || c == '\U{202F}'
    || c == '\U{205F}' || c == '\U{3000}'
  }

  /** Every character of `s` is whitespace. */
  predicate AllSpace(s: string) {
    forall k :: 0 <= k < |s| ==> IsSpace(s[k])
  }

  /** `s` neither begins nor ends with whitespace. */
  predicate Trimmed(s: string) {
    s == [] || (!IsSpace(s[0]) && !IsSpace(s[|s| - 1]))
  }

  /** Python's `s.startswith(prefix)`. */
  predicate StartsWith(s: string, prefix: string) {
    |prefix| <= |s| && s[..|prefix|] == prefix
  }

  /** A string whose first character differs from the prefix's does not
      start with it. */
  lemma FirstCharDiffers(s: string, prefix: string)
    requires |prefix| > 0 && (|s| == 0 || s[0] != prefix[0])
    ensures !StartsWith(s, prefix)
  {
  }

  /** Python's `s.endswith(suffix)`. */
  predicate EndsWith(s: string, suffix: string) {
    |suffix| <= |s| && s[|s| - |suffix|..] == suffix
  }

  /** Index of the first non-whitespace character (|s| if there is none). */
  function LeadingSpaces(s: string): (i: nat)
    ensures i <= |s|
    ensures AllSpace(s[..i])
    ensures i < |s| ==> !IsSpace(s[i])
  {
    if |s| == 0 || !IsSpace(s[0]) then 0
    else
      var i := 1 + LeadingSpaces(s[1..]);
      assert s[..i] == [s[0]] + s[1..][..i - 1];
      i
  }

  /** End of the last non-whitespace character (0 if there is none). */
  function TrailingStart(s: string): (j: nat)
    ensures j <= |s|
    ensures AllSpace(s[j..])
    ensures j > 0 ==> !IsSpace(s[j - 1])
  {
    if |s| == 0 || !IsSpace(s[|s| - 1]) then |s|
    else
      var j := TrailingStart(s[..|s| - 1]);
      assert s[j..] == s[..|s| - 1][j..] + [s[|s| - 1]];
      j
  }

  /** Python's `s.strip()`: the longest infix of `s` with no whitespace at
      either end, obtained by removing only whitespace. */
  function Strip(s: string): (r: string)
    ensures |r| <= |s|
    ensures Trimmed(r)
  {
    var t := s[LeadingSpaces(s)..];
    var j := TrailingStart(t);
    assert AllSpace(t) ==> j == 0;
    t[..j]
  }

  /** What `Strip` removes: the whitespace before the first
      non-whitespace character and the whitespace after the last one. */
  lemma StripIsInfix(s: string)
    ensures LeadingSpaces(s) + |Strip(s)| <= |s|
    ensures Strip(s) == s[LeadingSpaces(s)..LeadingSpaces(s) + |Strip(s)|]
    ensures AllSpace(s[LeadingSpaces(s) + |Strip(s)|..])
  {
    var i := LeadingSpaces(s);
    var t := s[i..];
    var j := TrailingStart(t);
    assert Strip(s) == t[..j];
    assert Strip(s) == s[i..i + j] by {
      assert t[..j] == s[i..i + j];
    }
    assert AllSpace(s[i + j..]) by {
      assert t[j..] == s[i + j..];
    }
  }

  /** `strip()` removes exactly the whitespace padding around a trimmed
      core: the characterization of `Strip` over all inputs. */
  lemma StripPadded(a: string, m: string, b: string)
    requires AllSpace(a) && AllSpace(b) && Trimmed(m)
    ensures Strip(a + m + b) == m
  {
    var s := a + m + b;
    var i := LeadingSpaces(s);
    if m == [] {
      assert s == a + b;
      assert AllSpace(s) by {
        forall k | 0 <= k < |s| ensures IsSpace(s[k]) {
          if k < |a| { assert s[k] == a[k]; } else { assert s[k] == b[k - |a|]; }
        }
      }
      assert i == |s|;
    } else {
      assert s[|a|] == m[0];
      assert i == |a|;
      var t := s[i..];
      assert t == m + b;
      var j := TrailingStart(t);
      assert t[|m| - 1] == m[|m| - 1];
      assert j == |m|;
      assert t[..j] == m;
    }
  }

  /** A string whose first character is not whitespace keeps every prefix
      that ends in a non-whitespace character when stripped. */
  lemma StripKeepsPrefix(s: string, p: string)
    requires |p| > 0 && !IsSpace(p[0]) && !IsSpace(p[|p| - 1])
    requires |p| <= |s| && s[..|p|] == p
    ensures |Strip(s)| >= |p| && Strip(s)[..|p|] == p
  {
    assert LeadingSpaces(s) == 0;
    StripIsInfix(s);
  }

  // ---------------------------------------------------------------------
  // str.split(sep) and sep.join(parts) for a one-character separator
  // ---------------------------------------------------------------------

  /** Index of the first `c` in `s` (|s| if there is none). */
  function IndexOf(s: string, c: char): (i: nat)
    ensures i <= |s|
    ensures i < |s| ==> s[i] == c
    ensures c !in s[..i]
  {
    if |s| == 0 || s[0] == c then 0
    else
      var i := 1 + IndexOf(s[1..], c);
      assert s[..i] == [s[0]] + s[1..][..i - 1];
      i
  }

  /** Python's `s.split(sep)`: never empty, `"".split(sep) == [""]`, and no
      part contains the separator. */
  function Split(s: string, sep: char): (parts: seq<string>)
    ensures |parts| >= 1
    ensures forall p | p in parts :: sep !in p
    decreases |s|
  {
    var i := IndexOf(s, sep);
    if i == |s| then
      assert s[..i] == s;
      [s]
    else
      [s[..i]] + Split(s[i + 1..], sep)
  }

  /** Python's `sep.join(parts)`. */
  function Join(parts: seq<string>, sep: char): string
  {
    if |parts| == 0 then ""
    else if |parts| == 1 then parts[0]
    else parts[0] + [sep] + Join(parts[1..], sep)
  }

  /** A join starts with the first part, ends with the last, and puts the
      separator right after the first part when there is a second. */
  lemma {:induction false} JoinShape(parts: seq<string>, sep: char)
    ensures |parts| == 0 ==> Join(parts, sep) == ""
    ensures |parts| > 0 ==> |parts[0]| <= |Join(parts, sep)| && Join(parts, sep)[..|parts[0]|] == parts[0]
    ensures |parts| > 0 ==>
      var j, last := Join(parts, sep), parts[|parts| - 1];
      |last| <= |j| && j[|j| - |last|..] == last
    ensures |parts| > 1 ==> Join(parts, sep)[|parts[0]|] == sep
  {
    if |parts| > 1 {
      var j, rest := Join(parts, sep), Join(parts[1..], sep);
      JoinShape(parts[1..], sep);
      assert j == parts[0] + [sep] + rest;
      assert parts[1..][|parts[1..]| - 1] == parts[|parts| - 1];
      assert j[|j| - |rest|..] == rest;
    }
  }

  /** Splitting a join gives back the parts, provided there is at least one
      part and none contains the separator. */
  lemma {:induction false} SplitJoin(parts: seq<string>, sep: char)
    requires |parts| >= 1
    requires forall p | p in parts :: sep !in p
    ensures Split(Join(parts, sep), sep) == parts
  {
    var s := Join(parts, sep);
    var p := parts[0];
    assert sep !in p;
    if |parts| == 1 {
      assert s == p;
      assert IndexOf(s, sep) == |s|;
    } else {
      var rest := Join(parts[1..], sep);
      assert s == p + [sep] + rest;
      assert s[|p|] == sep;
      assert s[..|p|] == p;
      assert IndexOf(s, sep) == |p|;
      assert s[|p| + 1..] == rest;
      SplitJoin(parts[1..], sep);
    }
  }

  /** Joining a split gives back the string. */
  lemma {:induction false} JoinSplit(s: string, sep: char)
    ensures Join(Split(s, sep), sep) == s
    decreases |s|
  {
    var i := IndexOf(s, sep);
    if i < |s| {
      var rest := Split(s[i + 1..], sep);
      var parts := [s[..i]] + rest;
      assert Split(s, sep) == parts;
      assert |parts| > 1 && parts[0] == s[..i] && parts[1..] == rest;
      assert Join(parts, sep) == s[..i] + [sep] + Join(rest, sep);
      JoinSplit(s[i + 1..], sep);
      assert s == s[..i] + [sep] + s[i + 1..];
    } else {
      assert Split(s, sep) == [s];
    }
  }

  /** Lines each followed by a newline, as built by `text += f"...\n"` in a
      loop. */
  function JoinLines(lines: seq<string>): string
  {
    if |lines| == 0 then "" else lines[0] + "\n" + JoinLines(lines[1..])
  }

  /** Newline-terminated lines split back into the lines plus the empty
      piece after the last newline. */
  lemma {:induction false} SplitJoinLines(lines: seq<string>)
    requires forall l | l in lines :: '\n' !in l
    ensures Split(JoinLines(lines), '\n') == lines + [""]
  {
    JoinLinesIsJoin(lines);
    SplitJoin(lines + [""], '\n');
  }

  lemma {:induction false} JoinLinesIsJoin(lines: seq<string>)
    ensures JoinLines(lines) == Join(lines + [""], '\n')
  {
    if |lines| > 0 {
      JoinLinesIsJoin(lines[1..]);
      assert (lines + [""])[1..] == lines[1..] + [""];
    }
  }

  /** Splitting at the first newline: a newline-free line followed by a
      newline comes back as that line, then the pieces of the rest. */
  lemma SplitAfterLine(l: string, rest: string)
    requires '\n' !in l
    ensures Split(l + "\n" + rest, '\n') == [l] + Split(rest, '\n')
  {
    var s := l + "\n" + rest;
    var i := IndexOf(s, '\n');
    assert s[|l|] == '\n';
    assert i == |l|;
    assert s[..i] == l;
    assert s[i + 1..] == rest;
  }

  /** Newline-terminated lines followed by any text split into those lines,
      then the pieces of the text. */
  lemma {:induction false} SplitAfterLines(lines: seq<string>, rest: string)
    requires forall i :: 0 <= i < |lines| ==> '\n' !in lines[i]
    ensures Split(JoinLines(lines) + rest, '\n') == lines + Split(rest, '\n')
  {
    if |lines| > 0 {
      var tail := lines[1..];
      var after := JoinLines(tail) + rest;
      assert forall i :: 0 <= i < |tail| ==> tail[i] == lines[i + 1];
      SplitAfterLines(tail, rest);
      JoinLinesCons(lines, rest);
      SplitAfterLine(lines[0], after);
      ConsAppend(lines, Split(rest, '\n'));
    } else {
      assert JoinLines(lines) + rest == rest;
    }
  }

  /** Appending to a non-empty sequence keeps its first element first. */
  lemma ConsAppend<T>(xs: seq<T>, ys: seq<T>)
    requires |xs| > 0
    ensures xs + ys == [xs[0]] + (xs[1..] + ys)
  {
  }

  /** The first line and its newline, then the other lines and the text. */
  lemma JoinLinesCons(lines: seq<string>, rest: string)
    requires |lines| > 0
    ensures JoinLines(lines) + rest == lines[0] + "\n" + (JoinLines(lines[1..]) + rest)
  {
  }

  /** The first piece of a split begins with any newline-free prefix of
      the text. */
  lemma SplitFirstStartsWith(p: string, q: string)
    requires '\n' !in p
    ensures StartsWith(Split(p + q, '\n')[0], p)
  {
    var s := p + q;
    var i := IndexOf(s, '\n');
    if i < |s| {
      assert Split(s, '\n')[0] == s[..i];
    } else {
      assert Split(s, '\n')[0] == s;
    }
  }

  /** Concatenation of a sequence of strings. */
  function Concat(parts: seq<string>): string
  {
    if |parts| == 0 then "" else parts[0] + Concat(parts[1..])
  }

  // ---------------------------------------------------------------------
  // str(int) and reading a number back
  // ---------------------------------------------------------------------

  predicate IsDigit(c: char) {
    '0' <= c <= '9'
  }

  predicate AllDigits(s: string) {
    forall k :: 0 <= k < |s| ==> IsDigit(s[k])
  }

  function DigitChar(d: nat): (c: char)
    requires d < 10
    ensures IsDigit(c)
  {
    ('0' as int + d) as char
  }

  function DigitValue(c: char): nat
    requires IsDigit(c)
  {
    c as int - '0' as int
  }

  /** Python's `str(n)` for a non-negative integer: decimal digits, no
      leading zero except for 0 itself. */
  function NatToString(n: nat): (s: string)
    ensures |s| >= 1
    ensures AllDigits(s)
    ensures '\n' !in s && ']' !in s
  {
    if n < 10 then [DigitChar(n)]
    else NatToString(n / 10) + [DigitChar(n % 10)]
  }

  /** Decimal value of a digit string. */
  function ParseNat(s: string): nat
    requires AllDigits(s)
  {
    if |s| == 0 then 0
    else 10 * ParseNat(s[..|s| - 1]) + DigitValue(s[|s| - 1])
  }

  /** Reading back what `str(n)` wrote gives `n`. */
  lemma {:induction false} ParseNatToString(n: nat)
    ensures ParseNat(NatToString(n)) == n
  {
    if n >= 10 {
      var s := NatToString(n);
      assert s[..|s| - 1] == NatToString(n / 10);
      ParseNatToString(n / 10);
    }
  }

  /** Distinct numbers print differently. */
  lemma NatToStringInjective(m: nat, n: nat)
    requires NatToString(m) == NatToString(n)
    ensures m == n
  {
    ParseNatToString(m);
    ParseNatToString(n);
  }

  /** Python's `str(i)` for any integer: the decimal digits of `|i|`,
      after a minus sign when `i` is negative. */
  function IntToString(i: int): (s: string)
    ensures |s| >= 1
    ensures i >= 0 ==> AllDigits(s) && ParseNat(s) == i
    ensures i < 0 ==> s[0] == '-' && AllDigits(s[1..]) && ParseNat(s[1..]) == -i
  {
    if i < 0 then
      ParseNatToString(-i);
      var s := "-" + NatToString(-i);
      assert s[1..] == NatToString(-i);
      s
    else
      ParseNatToString(i);
      NatToString(i)
  }

  /** Length of the longest all-digit prefix of `s`. */
  function DigitPrefix(s: string): (d: nat)
    ensures d <= |s|
    ensures AllDigits(s[..d])
    ensures d < |s| ==> !IsDigit(s[d])
  {
    if |s| == 0 || !IsDigit(s[0]) then 0
    else
      var d := 1 + DigitPrefix(s[1..]);
      assert s[..d] == [s[0]] + s[1..][..d - 1];
      d
  }

  /** The number a string starts with, as in `"3\n\nTitle: ..."`. */
  function LeadingNumber(s: string): Option<nat>
  {
    var d := DigitPrefix(s);
    if d == 0 then None else Some(ParseNat(s[..d]))
  }

  /** The number of a bracketed citation a string starts with, as in
      `"[3] - [title](url)"`. */
  function LeadingCitation(s: string): Option<nat>
  {
    if |s| == 0 || s[0] != '[' then None
    else
      var d := DigitPrefix(s[1..]);
      if d == 0 || d + 1 >= |s| || s[d + 1] != ']' then None
      else
        assert s[1..d + 1] == s[1..][..d];
        Some(ParseNat(s[1..d + 1]))
  }

  /** `DigitPrefix` is the only split point with digits before it and a
      non-digit (or the end) after it. */
  lemma DigitPrefixUnique(s: string, d: nat)
    requires d <= |s| && AllDigits(s[..d])
    requires d < |s| ==> !IsDigit(s[d])
    ensures DigitPrefix(s) == d
  {
    var e := DigitPrefix(s);
    forall k | 0 <= k < d ensures IsDigit(s[k]) { assert s[..d][k] == s[k]; }
    forall k | 0 <= k < e ensures IsDigit(s[k]) { assert s[..e][k] == s[k]; }
  }

  lemma DigitPrefixOf(ds: string, rest: string)
    requires AllDigits(ds)
    requires rest == [] || !IsDigit(rest[0])
    ensures DigitPrefix(ds + rest) == |ds|
  {
    var s := ds + rest;
    assert s[..|ds|] == ds;
    DigitPrefixUnique(s, |ds|);
  }

  /** `str(n)` followed by a non-digit is read back as `n`. */
  lemma LeadingNumberOf(n: nat, rest: string)
    requires rest == [] || !IsDigit(rest[0])
    ensures LeadingNumber(NatToString(n) + rest) == Some(n)
  {
    var ds := NatToString(n);
    DigitPrefixOf(ds, rest);
    assert (ds + rest)[..|ds|] == ds;
    ParseNatToString(n);
  }

  /** `"[" + str(n) + "]"` at the head of a string is read back as `n`. */
  lemma LeadingCitationOf(n: nat, rest: string)
    ensures LeadingCitation("[" + NatToString(n) + "]" + rest) == Some(n)
  {
    var ds := NatToString(n);
    var s := "[" + ds + "]" + rest;
    assert s[1..] == ds + ("]" + rest);
    DigitPrefixOf(ds, "]" + rest);
    assert s[|ds| + 1] == ']';
    assert s[1..|ds| + 1] == ds;
    ParseNatToString(n);
  }

  // ---------------------------------------------------------------------
  // Slicing and truncation
  // ---------------------------------------------------------------------

  /** Python's `s[:k]`, including a negative `k` counted from the end. */
  function PyPrefix(s: string, k: int): (r: string)
    ensures r <= s
  {
    if k >= 0 then (if k <= |s| then s[..k] else s)
    else if |s| + k >= 0 then s[..|s| + k]
    else []
  }

  /** `s[:limit] + marker` when `len(s) > limit`, else `s` unchanged. */
  function Truncate(s: string, limit: nat, marker: string): (r: string)
    ensures |s| <= limit ==> r == s
    ensures |s| > limit ==> |r| == limit + |marker| && r[..limit] == s[..limit] && r[limit..] == marker
    ensures |r| <= if |s| <= limit then limit else limit + |marker|
  {
    if |s| > limit then s[..limit] + marker else s
  }
}

=== FILE: wrappers.dfy ===
/** Failure-compatible wrappers shared by the whole model.

    The source is Python: its error paths are exceptions. A `Result` carries
    either the value a call returns or the kind of exception it raises, so
    that a `try`/`except` becomes a `match` and an uncaught exception becomes
    a propagated `Err`.
 */
module Wrappers {

  datatype Option<+T> = None | Some(value: T)

  /** The Python exception kinds the modelled code can raise or meet. */
  datatype PyError =
    | KeyError         // `d[k]` on a dict without key `k`
    | TypeError        // indexing a value that is not a dict, `None` where a str is needed
    | ValueError       // explicit `raise ValueError(...)`
    | IndexError       // `[0]` on an empty list
    | ProviderError    // anything raised inside a search or LLM client

  datatype Result<+T> = Ok(value: T) | Err(error: PyError) {

    predicate IsFailure() {
      Err?
    }

    function PropagateFailure<U>(): Result<U>
      requires Err?
    {
      Err(error)
    }

    function Extract(): T
      requires Ok?
    {
      value
    }
  }
}
